=== FILE: README.md ===
# chess-elo-api core in Dafny

A model of the decision logic in the chess-elo-api Django service. The
service schedules chess puzzles for spaced repetition, watches players' Elo
ratings, and imports their games from Chess.com. The model covers:

- **The FSRS memory update** (`Fsrs`, `FsrsProperties`). This is the state
  change of a `(difficulty, stability, last review, next review)` record when
  a player reviews a puzzle.
  - `FSRSMemoryService.update_memory` and `FSRSMemory.update_memory` compute
    the same thing, and `Fsrs.UpdateMemory` models both.
  - `exp`, `ln` and `sqrt` are fields of an `Analysis` value. The ghost
    predicate `Numerics.Lawful` lists the only facts assumed about them.
  - Instants are real numbers counted in days.
  - The two Python exceptions the arithmetic can raise are error results:
    `ZeroDivisionError` for a zero stability, and `math.sqrt`'s domain error
    for a review dated before the previous one.
- **Attempts** (`Attempts`). This covers the rating derived from an attempt,
  the `record_try`/`use_hint`/`mark_solved` action endpoint, and the PUT
  endpoint.
- **Review selection and the daily quota** (`Review`):
  - the due list, ranked least retrievable first;
  - the daily mix of due reviews and new puzzles under the new and total
    limits, and its pagination;
  - the `UserDailyProgress` counters;
  - the bookkeeping of one attempt submission: the attempt number, the
    progress counters, and the memory update with what it reports.
- **Elo threshold crossings** (`EloThresholds`):
  - the change test and the live crossing detector of `notify_elo_thresholds`;
  - the historical detector and the oldest-rating-per-time-class reduction of
    `check_missed_thresholds`;
  - the batch pause of the notification loop.
  - Python's `//` and `%` are modelled as floor division (`Numerics.FloorDiv`,
    `Numerics.FloorMod`), so a negative threshold or batch size behaves as it
    does in Python. Only a zero divisor is excluded, because Python raises there.
- **Ingestion** (`Ingestion`, with the Python string operations it relies on
  in `PyStrings`):
  - archive URLs and `parse_archive_url`;
  - the archives a full scrape visits (`only_new`, `limit`);
  - the record kept from each game (`process_game`, duplicated as
    `_process_game`);
  - the monthly update of one player: the staleness rule, the fetch outcomes,
    the new-game count, and marking the archive processed.

`Sorting` is an insertion sort standing in for Python's `list.sort`.
`Sequences` holds subsequence facts, and `Wrappers` holds `Option` and `Result`.

Stores are values: attempts keyed by id, memory records as a sequence, stored
games as sets of uuids and URLs, and archive rows as a sequence in storage
order. The clock, the network responses and the random order of new puzzles
are parameters.

## Model

| member | source | states |
|---|---|---|
| Fsrs.NewMemory | chess_client/views.py:1473-1485 | a record created for an unreviewed pair has no review dates, a difficulty inside [1, 3] and a positive stability |
| Fsrs.InitialStability | chess_client/views.py:1213-1219 | first-review stability comes from the rating table and lies between 0.5 and 7.0 for any rating, including ratings outside 1..4 |
| Fsrs.StabilityMultiplier | chess_client/views.py:1220-1226 | the stability factor lies in [0.2, 2.0], and is at least 1.1 for every rating other than a lapse |
| Fsrs.DifficultyAdjustment | chess_client/views.py:1227-1233 | the rating's difficulty step lies in [-0.1, 0.1] and makes a puzzle harder exactly for ratings 1 and 2 |
| Fsrs.TriesPenaltyFor | chess_client/views.py:1274-1276 | the wrong-tries penalty lies in [0, 0.3] and is zero exactly when there were no wrong tries |
| Fsrs.ClampDifficulty | chess_client/views.py:1281-1282 | the clamp lands in [1, 3], keeps a value already inside, and maps a value outside to the nearer bound |
| Fsrs.NewDifficulty | chess_client/views.py:1271-1282 | the rating adjustment and the tries and hint penalties (`PenalisedDifficulty`) are applied before the clamp, so the stored difficulty is inside [1, 3] for every prior difficulty, rating, try count and hint flag |
| Fsrs.RetrievabilityAfter | chess_client/views.py:1243-1246 | fails with a zero division exactly when stability is 0; otherwise lies in (0, 1] for a positive stability and a non-negative gap, and is exactly 1 after no time |
| Fsrs.Retrievability | chess_client/models.py:126-132 | an unreviewed record is fully retrievable; the computation fails exactly for a reviewed record with stability 0; otherwise the value lies in (0, 1] |
| Fsrs.NextInterval | chess_client/models.py:134-136 | for a retention below 1 the interval is non-negative, and positive exactly when stability is positive |
| Fsrs.SpacingFactor | chess_client/views.py:1293-1294 | fails exactly when the gap is negative (`math.sqrt` domain error); otherwise lies in [0, 2] and is 0 exactly when no time has passed |
| Fsrs.Reschedule | chess_client/views.py:1299-1304 | keeps the identity, stores the new parameters, records the review at `now`, and schedules the next review at or after `now`, strictly after exactly when stability is positive |
| Fsrs.UpdateMemory | chess_client/views.py:1254-1310 | fails exactly for a reviewed record with stability 0, or for a non-lapse review dated before the last one; otherwise the review is recorded at `now`, the stored difficulty is `NewDifficulty` of the old one (so the tries and hint properties below hold of the update), it is in [1, 3], and from a non-negative stability the new stability is non-negative and the next review is not in the past; `FSRSMemory.update_memory` (chess_client/models.py:138-212) uses the same tables and steps |
| FsrsProperties.FirstReviewStability | chess_client/views.py:1262-1269 | a first review sets stability to 0.5, 1.2, 3.0 or 7.0 for ratings 1 to 4 and to 1.0 for any other rating, whatever the prior stability |
| FsrsProperties.LapseIgnoresElapsed | chess_client/views.py:1285-1288 | a later lapse keeps a fifth of the stability, for any review time |
| FsrsProperties.SuccessfulReviewStability | chess_client/views.py:1289-1297 | a later non-lapse review multiplies stability by the rating's multiplier and by `min(2, sqrt(elapsed / max(S, 0.1)))`, a factor in [0, 2] |
| FsrsProperties.StabilityPositiveIffTimePassed | chess_client/views.py:1290-1297 | from a positive stability, a later non-lapse review keeps stability positive if and only if time has passed since the last review |
| FsrsProperties.UpdatePreservesHealth | chess_client/views.py:1254-1310 | a review keeps difficulty in range and stability positive, and schedules the next review strictly after `now`, provided a later non-lapse review comes strictly after the previous one |
| FsrsProperties.SameInstantReviewZeroesStability | chess_client/models.py:131-132 | a non-lapse review at the instant of the last one sets stability to 0 and the next review to that instant; every later review of the record then fails with a zero division |
| FsrsProperties.TriesPenaltyCapped | chess_client/models.py:176-178 | wrong tries beyond the third do not change difficulty |
| FsrsProperties.DifficultyMonotoneInTries | chess_client/models.py:173-184 | more wrong tries never give a lower difficulty |
| FsrsProperties.HintNeverEases | chess_client/models.py:180-184 | a hint never gives a lower difficulty |
| FsrsProperties.DefaultFirstGoodReview | chess_client/models.py:158-184 | from the defaults, a first Good review with no wrong tries and no hint gives stability 3.0 and difficulty 1.95 |
| FsrsProperties.IntervalRoundTrip | chess_client/models.py:126-136 | after `NextInterval(S, r)` days the retrievability is exactly `r`, for a positive stability and `r` in (0, 1) |
| FsrsProperties.ScheduledReviewMeetsRetention | chess_client/views.py:1299-1301 | at the scheduled next review, a healthy record's retrievability is exactly the desired retention 0.9 |
| FsrsProperties.RetrievabilityDecays | chess_client/models.py:131-132 | recall probability never rises as the gap grows |
| Attempts.DetermineRating | chess_client/models.py:98-107 | the derived rating is in 1..4: 1 iff unsolved, 2 iff solved after more than two tries or with a hint, 3 iff solved after one or two tries without a hint, 4 iff solved cleanly |
| Attempts.ApplyAction | chess_client/views.py:1175-1182 | only the three action names are accepted; `record_try` adds exactly one try, `use_hint` and `mark_solved` raise their flag, `mark_solved` stamps the completion time, and nothing else changes |
| Attempts.PerformAction | chess_client/views.py:1157-1182 | an unknown action is rejected before the lookup, and a missing attempt is a not-found error; otherwise only the named attempt changes, by one action |
| Attempts.ApplyPatch | chess_client/views.py:1119-1130 | each supplied field is copied and absent ones are kept; the completion time is stamped only when the attempt ends up solved and had none, and an existing one is never cleared |
| Attempts.PutAttempt | chess_client/views.py:1107-1151 | a missing attempt is a not-found error; a patched try count below 0, which the non-negative `tries_count` column rejects on save, is a server error with the store unchanged; otherwise only the named attempt changes, by the patch, and its try count stays non-negative |
| Attempts.RecordTryCountsOne | chess_client/views.py:1176-1177 | `record_try` changes the try count by exactly one and nothing else |
| Attempts.FlagActionsIdempotent | chess_client/views.py:1178-1182 | repeating `use_hint` or `mark_solved` at the same instant is the same as doing it once |
| Attempts.SolvedNeverRatedAgain | chess_client/models.py:100-101 | an attempt marked solved is never rated 1 |
| Attempts.MoreTriesNeverRateHigher | chess_client/models.py:102-107 | one more wrong try never raises the rating of a solved attempt |
| Review.DueMemories | chess_client/views.py:1335-1336 | keeps every due record with its multiplicity and nothing else, where due (`IsDue`) means the next review is present and at or before `now` |
| Review.ByRetrievability | chess_client/views.py:1358-1359 | the urgency order is a total preorder on retrievability |
| Review.Annotate | chess_client/views.py:1335-1346 | pairs each due record with its retrievability, in order, and fails exactly when one of them is reviewed with stability 0 |
| Review.DuePuzzles | chess_client/views.py:1328-1359 | fails exactly when some due record is reviewed with stability 0; otherwise lists exactly the due records with their retrievability, a strictly less retrievable one always earlier |
| Review.RankedByRetrievability | chess_client/views.py:1358-1359 | in the sorted due list a strictly lower retrievability always comes first |
| Review.NewRemaining | chess_client/views.py:1609 | the new quota left is non-negative, zero exactly when the new-puzzle limit is reached, and otherwise fills the gap to the limit |
| Review.TotalRemaining | chess_client/views.py:1610 | the total quota left is non-negative, zero exactly when the total limit is reached, and otherwise fills the gap to the limit |
| Review.SliceTo | chess_client/views.py:1707 | Python's `s[:n]` is a prefix of length `min(n, len)` for `n >= 0`, and drops the last `-n` elements for a negative `n` |
| Review.DailyMix | chess_client/views.py:1604-1666 | empty when the total quota is used up; otherwise at most the total quota, due reviews first (`min(due, total)` of them, in order, flagged not new), then new puzzles up to the new quota, flagged new exactly when not due |
| Review.DailyPage | chess_client/views.py:1706-1707 | the page is a prefix of the mix, of length `min(per_page, len)` for a non-negative page size |
| Review.DuePuzzleIds | chess_client/views.py:1628-1635 | the due puzzle ids are exactly the puzzles of due records |
| Review.MixDrawsFromItsPools | chess_client/views.py:1626-1666 | every review entry of the mix is a due puzzle, and every new entry belongs to the player and was never attempted |
| Review.QuotaExhaustedMixEmpty | chess_client/views.py:1612-1624 | once the total limit is reached, the mix is empty |
| Review.NewQuotaReachedOnlyReviews | chess_client/views.py:1648-1660 | once the new limit is reached, the mix holds `min(due, total)` due reviews and nothing new |
| Review.NextAttemptNumber | chess_client/views.py:1412-1420 | the next attempt number is 1 with no prior attempt, and otherwise one more than the largest prior number |
| Review.ResolveRating | chess_client/views.py:1434-1438 | an explicit rating is used as given, even outside 1..4; otherwise the derived rating is in 1..4 |
| Review.TotalDone | chess_client/models.py:224-226 | the day's total is the new puzzles plus the reviews, at least either count when both are non-negative |
| Review.NewLimitReached | chess_client/models.py:228-229 | a limit of 0 or less is always reached, and a reached limit is at most the new puzzles seen |
| Review.TotalLimitReached | chess_client/models.py:231-232 | new puzzles alone or reviews alone at the limit reach it, and a reached limit is at most the day's total |
| Review.LimitsStayReached | chess_client/models.py:224-232 | a reached limit stays reached after one more submission; the total limit becomes reached exactly when the submission brings the total to it; a review leaves the new-puzzle verdict alone |
| Review.RecordSubmission | chess_client/views.py:1453-1459 | a first attempt adds one new puzzle seen and any later one adds one review, so the day's total grows by exactly one |
| Review.SubmitAttempt | chess_client/views.py:1412-1549 | a negative try count fails the attempt's save before anything is stored, so the request is a server error; any other submission is accepted, stores the given try count, and is recorded as `Submission` describes |
| Review.Submission | chess_client/views.py:1412-1521 | the stored attempt keeps the submitted tries, hint and solved values; the rating is `ResolveRating` of the submission (an explicit rating passes through); the memory is `UpdateMemory` of the existing record, or of a fresh default one, with that rating; the attempt number exceeds every prior number; the day's total grows by one, on the new counter exactly for attempt number 1; completion is stamped iff solved; a missing memory is created and reviewed at `now`; the response is a server error (`None`) exactly when the update fails or leaves stability 0, and in that case the intended handler would have sent the fallback; otherwise the response is the intended report, and for a new record or one with non-negative stability its next review is never in the past and its retrievability is 1 |
| Review.FirstCleanSolve | chess_client/views.py:1412-1514 | a first clean solve of an unreviewed puzzle is rated 4, counted as new, and gives stability 7.0, difficulty 1.9 and a next review `7 * -ln 0.9` days later, which the response reports with retrievability 1 |
| Review.FallbackReport | chess_client/views.py:1519-1521 | the fallback answer schedules the review one day later, with retrievability 1 |
| Review.UpdateReport | chess_client/views.py:1507-1514 | the report fails when the update did, or when the update left stability 0; otherwise it carries the update's next review and full retrievability |
| Review.ReportAsWritten | chess_client/views.py:1488-1549 | the view as written answers with a server error exactly when the update or the retrievability read fails |
| Review.SameInstantReviewIsServerError | chess_client/views.py:1515-1517 | a Good review at the instant of the last one makes the view as written fail, while the intended handler answers with the fallback |
| Review.SubmissionReport | chess_client/views.py:1507-1521 | a failed update gives the fallback; the reported retrievability right after the review is 1, and the reported review is never in the past |
| EloThresholds.SomeRatingDiffers | chess_client/management/commands/notify_elo_thresholds.py:198-204 | true iff some current game type's rating differs from its stored rating, a missing stored rating reading as 0 (`LastRating`) |
| EloThresholds.HaveRatingsChanged | chess_client/management/commands/notify_elo_thresholds.py:192-204 | always true without stored ratings; otherwise true iff some current rating differs from its stored rating, a missing one reading as 0 |
| EloThresholds.ExtraStoredTypesIgnored | chess_client/management/commands/notify_elo_thresholds.py:199-204 | stored ratings for game types that are not current do not change the verdict |
| EloThresholds.BucketBounds | chess_client/management/commands/notify_elo_thresholds.py:289-290 | for a positive threshold the level `Bucket(r, t) == (r // t) * t` satisfies `level <= r < level + t`, mirrored for a negative threshold |
| EloThresholds.BucketMonotone | chess_client/management/commands/notify_elo_thresholds.py:289-294 | a higher rating never sits at a lower level, for either sign of threshold |
| EloThresholds.CheckThresholds | chess_client/management/commands/notify_elo_thresholds.py:272-304 | at most one crossing per current entry |
| EloThresholds.Crosses | chess_client/management/commands/notify_elo_thresholds.py:276-293 | a game type is reported only when both ratings are non-zero and differ, and always when both are non-zero and a full threshold step apart |
| EloThresholds.LiveCrossing | chess_client/management/commands/notify_elo_thresholds.py:276-302 | a crossing as written has non-zero, unequal ratings, and says "increased" iff the rating went up |
| EloThresholds.CheckThresholdsSound | chess_client/management/commands/notify_elo_thresholds.py:276-302 | every reported crossing belongs to a current entry: both ratings are non-zero, a missing stored rating reads as 0, the levels differ, and the direction is "increased" iff the new level is higher |
| EloThresholds.CheckThresholdsComplete | chess_client/management/commands/notify_elo_thresholds.py:274-302 | every current entry whose level moved, with both ratings non-zero, is reported |
| EloThresholds.CheckThresholdsInOrder | chess_client/management/commands/notify_elo_thresholds.py:274-304 | reported game types appear in the order of `current_ratings` |
| EloThresholds.ReportsOnlyCurrentTypes | chess_client/management/commands/notify_elo_thresholds.py:274-304 | a game type known only from the stored ratings is never reported |
| EloThresholds.AtMostOnePerGameType | chess_client/management/commands/notify_elo_thresholds.py:274-304 | with distinct current game types, no game type is reported twice |
| EloThresholds.CheckHistoricalThresholds | chess_client/management/commands/check_missed_thresholds.py:183-214 | every reported crossing has history, non-zero and unequal ratings at different levels, and the direction "increased" iff the current rating is higher |
| EloThresholds.SameVerdict | chess_client/management/commands/check_missed_thresholds.py:188-204 | on one game type the historical and live tests decide alike, and the raw-rating direction matches the level direction |
| EloThresholds.HistoricalAgreesWithLive | chess_client/management/commands/check_missed_thresholds.py:183-214 | on the same ratings the historical detector reports exactly the live detector's crossings, directions included |
| EloThresholds.HistoricalRatings | chess_client/management/commands/check_missed_thresholds.py:155-181 | a key `chess_<time class>` is present iff some game in the window has a non-zero rating in that class, and its value is the rating of the first such game |
| EloThresholds.HistoricalRatingIsOldest | chess_client/management/commands/check_missed_thresholds.py:146-181 | with games ordered by end time, a time class that has a contributing game gets the non-zero rating of its earliest such game |
| EloThresholds.PausesBefore | chess_client/management/commands/notify_elo_thresholds.py:103 | the first player never pauses; with a positive batch size, a pause comes before exactly the positive multiples of the batch size |
| EloThresholds.PauseCount | chess_client/management/commands/notify_elo_thresholds.py:101-105 | handling `n >= 1` players pauses fewer than `n` times |
| EloThresholds.PauseCountFormula | chess_client/management/commands/notify_elo_thresholds.py:101-105 | handling `n >= 1` players with a positive batch size pauses `(n - 1) // batch_size` times |
| EloThresholds.PauseIgnoresBatchSign | chess_client/management/commands/notify_elo_thresholds.py:103 | under Python's `%`, a negative batch size pauses at the same positions as its absolute value |
| Numerics.FloorDivMod | chess_client/management/commands/notify_elo_thresholds.py:289-290 | Python's `//` and `%` rebuild the dividend, with the remainder taking the divisor's sign |
| Sorting.Sort | chess_client/views.py:483 | the sorted list is ordered and a permutation of its input |
| Sorting.NewestFirst | chess_client/views.py:483 | `sort(reverse=True)` on strings is a total preorder, the reverse of Python's string order |
| PyStrings.Split | chess_client/views.py:287 | `split('/')` gives at least one piece, and no piece holds the separator |
| PyStrings.SplitAppend | chess_client/views.py:320 | splitting `a + sep + b` for a separator-free `b` gives the pieces of `a` followed by `b` |
| PyStrings.LastPiece | chess_client/views.py:320 | `split('/')[-1]` holds no separator, and is the whole text when there is none |
| PyStrings.Strip | chess_client/views.py:287 | `strip('/')` leaves neither end a slash, and leaves alone a text whose ends are not slashes |
| PyStrings.ReplaceChar | chess_client/views.py:353 | `replace('-', ' ')` changes exactly the dashes, position by position |
| PyStrings.Lower | chess_client/views.py:341 | `lower()` keeps the length, turns each ASCII capital into its small letter and keeps every other character |
| PyStrings.LowerIdempotent | chess_client/views.py:341 | lowering an already lowered name changes nothing |
| PyStrings.ParseInt | chess_client/views.py:288-289 | the text parses iff it is an optional sign followed by at least one ASCII digit; the value is the digits' decimal value, negated after a minus sign |
| PyStrings.IntToStr | chess_client/management/commands/update_chess_games.py:80 | `str(year)` is non-empty and holds no slash |
| PyStrings.Pad2 | chess_client/management/commands/update_chess_games.py:79 | `f"{month:02d}"` holds no slash, and is exactly two digits for a month in 0..99 |
| PyStrings.IntRoundTrip | chess_client/management/commands/update_chess_games.py:80 | `int(str(i)) == i` for every integer |
| PyStrings.Pad2RoundTrip | chess_client/management/commands/update_chess_games.py:79 | `int(f"{m:02d}") == m` for every integer |
| Ingestion.ParseArchiveUrl | chess_client/views.py:285-290 | a URL with fewer than two segments after stripping slashes is rejected, and so is one whose last segment is not an integer |
| Ingestion.ParseSegments | chess_client/views.py:288-289 | a single piece is a missing segment; an unparsable last piece is an error; a success carries the values of the last two pieces, the year first |
| Ingestion.ArchiveUrl | chess_client/management/commands/update_chess_games.py:78-84 | the URL ends in `/<year>/<MM>`, neither end is a slash, and for a month in 0..99 the last segment is two digits |
| Ingestion.ParseLastTwoSegments | chess_client/views.py:285-290 | a URL without outer slashes whose last two segments are integer literals parses to those two integers |
| Ingestion.ArchiveUrlRoundTrip | chess_client/management/commands/update_chess_games.py:78-84 | parsing the URL built for a player, year and month gives back that year and month |
| Ingestion.Unprocessed | chess_client/views.py:503 | the unprocessed archives keep their order and are exactly the archives not marked processed |
| Ingestion.Candidates | chess_client/views.py:494-513 | without `only_new` every archive is kept; with it, exactly the unprocessed ones plus the newest in front, always as a subsequence of the newest-first list |
| Ingestion.TakeLimit | chess_client/views.py:515-518 | a positive limit shorter than the list keeps exactly the first `limit` archives; otherwise the list is unchanged |
| Ingestion.SelectArchives | chess_client/views.py:476-518 | nothing is visited iff there are no archives; the visit list is a newest-first subsequence of the sorted archives, holds only real archives, and is a prefix of the candidate list: exactly the first `limit` candidates when a positive limit is shorter than it, and all of them otherwise |
| Ingestion.OnlyNewVisits | chess_client/views.py:494-510 | with `only_new` and no truncation, exactly the unprocessed archives and the newest one are visited |
| Ingestion.AllArchivesVisited | chess_client/views.py:511-513 | without `only_new` and without truncation, every archive is visited exactly as often as it is listed |
| Ingestion.NewestVisitedFirst | chess_client/views.py:482-507 | the first archive visited is the newest: every archive sorts at or before it |
| Ingestion.OpeningName | chess_client/views.py:350-356 | the opening name holds no dash and no slash, and is empty without an ECO URL |
| Ingestion.ProcessGame | chess_client/views.py:315-366 | the record names the requesting player; a present uuid, URL, end time, time class, side username or side rating is copied, a missing URL or side rating reads as "" or 0; a missing uuid falls back to a slash-free URL segment; the player's rating is white's iff white's username matches case-insensitively, black's otherwise; missing accuracies read as 0; `_process_game` (chess_client/management/commands/update_chess_games.py:166-217) is the same derivation |
| Ingestion.UuidFromUrl | chess_client/views.py:319-320 | a game without a uuid is identified by the last segment of its URL |
| Ingestion.OpeningFromEcoUrl | chess_client/views.py:350-354 | the opening is the last segment of the ECO URL with dashes read as spaces |
| Ingestion.FirstProcessed | chess_client/management/commands/update_chess_games.py:302-307 | finds the first processed row for the month in storage order, or reports that there is none |
| Ingestion.ShouldProcessArchive | chess_client/management/commands/update_chess_games.py:286-319 | the current month is always processed; any other month is skipped iff its first processed row was processed less than an hour ago |
| Ingestion.SkipIffRecentRow | chess_client/management/commands/update_chess_games.py:300-315 | with at most one row per month, a month is skipped iff some processed row for it is under an hour old |
| Ingestion.MarkProcessed | chess_client/management/commands/update_chess_games.py:135-157 | fails iff two rows exist for the month; stamps the single row; with no row, appends one unless the URL is already stored, and nothing else changes |
| Ingestion.MarkedMonthSkippedWithinTheHour | chess_client/management/commands/update_chess_games.py:135-157 | once a past month is marked, the update skips it for the next hour |
| Ingestion.SaveNewGames | chess_client/management/commands/update_chess_games.py:117-130 | the count equals both the number of uuids and the number of URLs newly stored, never exceeds the number of distinct new uuids; every new uuid is a month's game's uuid, and every new URL is the URL of a month's game whose uuid was stored with it; every game ends up stored or blocked by its URL; a game whose uuid and URL are both unstored and unshared with any earlier game is stored, so a fresh first game makes the count positive |
| Ingestion.ProcessGames | chess_client/management/commands/update_chess_games.py:119-121 | each game of the month is converted in order |
| Ingestion.ProcessMonth | chess_client/management/commands/update_chess_games.py:76-160 | the current month is never skipped; a skip, a failed fetch or an empty month leaves the store alone; success reports the number of newly stored uuids, bounded by the distinct new ones; the new uuids come from the month's games, every new URL comes with its game's uuid, every fetched game ends up stored or blocked, every fresh game is stored, and a fresh first game makes the reported count positive; a fetched, non-empty month that is not skipped fails exactly when marking the archive raises (two rows for the month), and otherwise its archive rows are the marked ones; a marked past month is skipped for the next hour |
| Ingestion.SaveMonth | chess_client/management/commands/update_chess_games.py:117-160 | a non-empty month ends in success or failure; the count is the number of newly stored uuids; the new uuids come from the month's games and every new URL comes with its game's uuid; every game ends up stored or blocked, every fresh game is stored, and a fresh first game makes the count positive; the month fails exactly when marking the archive raises (two rows for the month), leaving the archive rows alone, and otherwise its archive rows are the marked ones; a marked past month is skipped for the next hour |

## Left out

- HTTP, caching, timeouts and `time.sleep`: network responses are the `Fetch` parameter, and the pause is modelled as a position predicate. The same goes for stdout and logging, e-mail construction, JSON response formatting and `round(..., 2)`.
- ORM behaviour: queries, `get_or_create` and `transaction.atomic`. Stores are immutable values, and concurrent requests are not modelled.
- Floating-point arithmetic: reals replace floats, and `exp`, `ln` and `sqrt` are axiomatised. Overflow, rounding and the IEEE behaviour of `exp` are out of scope.
- Fsrs.Retrievability: the source reads a fresh clock in `calculate_retrievability`, a few microseconds after the update's `now`. The model evaluates at the same `now`, so the retrievability reported after a review is exactly 1 rather than almost 1.
- The `solved` parameter of `update_memory`: it is never read.
- Non-integer ratings, tries or JSON values of unexpected types in request bodies: the Python code would raise on some of them, and the model takes typed inputs. Negative try counts are modelled: both attempt writes reject them.
- Player and puzzle lookups that fail (404 responses), and `Player.objects.get` failing inside the monthly update: every lookup is assumed to succeed.
- The random order of new puzzles: the order is a parameter. The due puzzles' order in the daily mix is also a parameter, because the `id__in` re-query discards the `next_review_date` ordering.
- PyStrings.ParseInt: Python's `int()` also accepts surrounding whitespace, underscores between digits and non-ASCII digits. The model accepts only an optional sign and ASCII digits.
- PyStrings.Lower: Unicode case mapping beyond ASCII is not modelled.
- Ingestion.SaveNewGames: it models only the URL uniqueness failure of `_save_game_to_db`. Other database errors, such as an over-long uuid, are out of scope. The contract ties every new URL to a game whose uuid was stored with it, but does not state the converse pairing for every new uuid; the equal counts of new uuids and new URLs stand in for it.
- Ingestion.ParseArchiveUrl: its own contract states the error cases only. The success case is stated by `Ingestion.ParseLastTwoSegments` and `Ingestion.ArchiveUrlRoundTrip`.
- EloThresholds.CheckThresholds: its own contract is only a length bound. What it reports is stated by `CheckThresholdsSound`, `CheckThresholdsComplete` and `CheckThresholdsInOrder`.
- Sorting.Sort: the contract states order and permutation, not stability. For the archive URL strings this makes no difference, because elements that rank equal are equal. For the retrievability sort in `Review.DuePuzzles` it does: records with equal retrievability (for example the same stability and the same last review) keep their input order in Python's stable sort, and the insertion sort keeps it too, but no contract states that tie order.
- A threshold or batch size of 0: the model requires a non-zero divisor. In Python a batch size of 0 makes `i % batch_size` raise `ZeroDivisionError` inside the per-player `try` (chess_client/management/commands/notify_elo_thresholds.py:101-103, caught at line 172), so every player after the first is counted as an error and the command carries on. A threshold of 0 raises only in `check_thresholds` on an entry whose current and stored ratings are both non-zero (lines 276-290), and that error is caught by the same per-player handler.
- Ingestion.SelectArchives: it has no error outcome. Before the selection, `save_archives_to_db` (chess_client/views.py:492) calls `parse_archive_url` on every archive URL not yet stored (line 303) with no `try` around it, so one such URL whose last two segments are not integers raises and the request fails before the selection runs.
- `save_archives_to_db`, `update_player_stats`/`_update_player_stats`, `mark_archive_processed`, and the per-archive fetch loop of `get_all_games`: these are database writes and network calls around the modelled selection.
- The memory-lookup fallback at chess_client/views.py:1488-1505: a failing query is outside the model, so that handler never runs.
- `PlayerRatingHistoryView`, `FSRSDiagnosticView`, `ResetDailyProgressView`, `APIDocsView`, the URL routes, and the `create_real_players`, `update_elo_ratings` and `check_elo_ratings` commands: these are reporting, seed data and API plumbing, outside this core.
- `datetime.now()` against `timezone.now()`: the current month (`today`) and the instant (`now`) are separate parameters.

## Findings

| source | as written | input that shows it | evidently intended | confidence | as-written member | corrected member |
|---|---|---|---|---|---|---|
| chess_client/views.py:1491-1517 | the `import traceback` statements at lines 1491 and 1543 make `traceback` a local name of the whole `post` method, so the algorithm-error handler at line 1517 raises `UnboundLocalError` unless the memory-lookup handler ran first; the request ends in the outer 500 response | any exception inside the update; for example, a Good review at the exact instant of the previous review leaves stability 0, so reading the retrievability at line 1514 divides by zero | answer with the fallback schedule (next review one day later, retrievability 1.0) | not executed | Review.ReportAsWritten, Review.SameInstantReviewIsServerError, Review.Submission | Review.SubmissionReport |

=== FILE: attempts.dfy ===
/**
  Puzzle attempts: the rating derived from an attempt, and the two endpoints
  that change an attempt after it was created (`PuzzleAttemptActionView.post`
  and `PuzzleAttemptView.put`).
*/
module Attempts {
  import opened Wrappers

  /** The fields of a `PuzzleAttempt` that the lifecycle touches; instants are in days. */
  datatype Attempt = Attempt(
    id: string,
    attemptNumber: int,
    triesCount: int,
    hintUsed: bool,
    solved: bool,
    completedAt: Option<real>)

  /** Errors the attempt endpoints answer with, in place of a changed attempt. */
  datatype AttemptError =
    | InvalidAction(action: string)   // HTTP 400
    | AttemptNotFound(id: string)     // HTTP 404
    | TriesRejected(triesCount: int)  // HTTP 500: the tries column holds only counts >= 0

  /**
    `PuzzleAttempt.determine_rating`: 1 (Again) when unsolved, 2 (Hard) when
    solved after more than two wrong tries or with a hint, 3 (Good) after one
    or two wrong tries, 4 (Easy) otherwise.
  */
  function DetermineRating(solved: bool, triesCount: int, hintUsed: bool): (rating: int)
    ensures 1 <= rating <= 4
    ensures rating == 1 <==> !solved
    ensures rating == 2 <==> solved && (triesCount > 2 || hintUsed)
    ensures rating == 3 <==> solved && 0 < triesCount <= 2 && !hintUsed
    ensures rating == 4 <==> solved && triesCount <= 0 && !hintUsed
  {
    if !solved then 1
    else if triesCount > 2 || hintUsed then 2
    else if triesCount > 0 then 3
    else 4
  }

  /** The only action names the action endpoint accepts. */
  const Actions: set<string> := {"record_try", "use_hint", "mark_solved"}

  /**
    One action on an attempt at time `now`: `record_try` counts one more wrong
    try, `use_hint` and `mark_solved` raise their flag, and `mark_solved` also
    stamps the completion time. Any other action name is rejected unchanged.
  */
  function ApplyAction(att: Attempt, action: string, now: real): (r: Result<Attempt, AttemptError>)
    ensures r.Err? <==> action !in Actions
    ensures r.Err? ==> r.error == InvalidAction(action)
    ensures r.Ok? ==> r.value.id == att.id && r.value.attemptNumber == att.attemptNumber
    ensures r.Ok? ==> r.value.triesCount == att.triesCount + (if action == "record_try" then 1 else 0)
    ensures r.Ok? ==> (r.value.hintUsed <==> att.hintUsed || action == "use_hint")
    ensures r.Ok? ==> (r.value.solved <==> att.solved || action == "mark_solved")
    ensures r.Ok? ==> r.value.completedAt == if action == "mark_solved" then Some(now) else att.completedAt
  {
    if action == "record_try" then Ok(att.(triesCount := att.triesCount + 1))
    else if action == "use_hint" then Ok(att.(hintUsed := true))
    else if action == "mark_solved" then Ok(att.(solved := true, completedAt := Some(now)))
    else Err(InvalidAction(action))
  }

  /**
    The action endpoint over a store of attempts keyed by id. The action name
    is validated before the attempt is looked up, so an invalid action on a
    missing attempt is reported as an invalid action.
  */
  function PerformAction(store: map<string, Attempt>, attemptId: string, action: string, now: real)
    : (r: Result<map<string, Attempt>, AttemptError>)
    requires forall k :: k in store ==> store[k].id == k
    ensures action !in Actions ==> r == Err(InvalidAction(action))
    ensures action in Actions && attemptId !in store ==> r == Err(AttemptNotFound(attemptId))
    ensures r.Ok? ==> attemptId in store && r.value.Keys == store.Keys
    ensures r.Ok? ==> forall k :: k in store && k != attemptId ==> r.value[k] == store[k]
    ensures r.Ok? ==> Ok(r.value[attemptId]) == ApplyAction(store[attemptId], action, now)
    ensures r.Ok? ==> forall k :: k in r.value ==> r.value[k].id == k
  {
    if action !in Actions then Err(InvalidAction(action))
    else if attemptId !in store then Err(AttemptNotFound(attemptId))
    else
      var updated := ApplyAction(store[attemptId], action, now);
      Ok(store[attemptId := updated.value])
  }

  /** The optional fields of a PUT body; an absent field leaves the attempt's value alone. */
  datatype AttemptPatch = AttemptPatch(triesCount: Option<int>, hintUsed: Option<bool>, solved: Option<bool>)

  /**
    `PuzzleAttemptView.put` applied to an existing attempt at time `now`: each
    supplied field is copied, and the completion time is stamped only when the
    attempt ends up solved and had none. Marking an attempt unsolved keeps its
    completion time.
  */
  function ApplyPatch(att: Attempt, patch: AttemptPatch, now: real): (att': Attempt)
    ensures att'.id == att.id && att'.attemptNumber == att.attemptNumber
    ensures att'.triesCount == patch.triesCount.GetOr(att.triesCount)
    ensures att'.hintUsed == patch.hintUsed.GetOr(att.hintUsed)
    ensures att'.solved == patch.solved.GetOr(att.solved)
    ensures att.completedAt.Some? ==> att'.completedAt == att.completedAt
    ensures att.completedAt.None? ==>
      (att'.completedAt == if patch.solved == Some(true) then Some(now) else None)
  {
    var a1 := if patch.triesCount.Some? then att.(triesCount := patch.triesCount.value) else att;
    var a2 := if patch.hintUsed.Some? then a1.(hintUsed := patch.hintUsed.value) else a1;
    if patch.solved.Some? then
      var a3 := a2.(solved := patch.solved.value);
      if a3.solved && a3.completedAt.None? then a3.(completedAt := Some(now)) else a3
    else a2
  }

  /**
    The PUT endpoint over a store of attempts keyed by id. The attempt is
    looked up first; saving a patched attempt with a negative try count fails
    the column's constraint, and the request ends in a server error with the
    store unchanged.
  */
  function PutAttempt(store: map<string, Attempt>, attemptId: string, patch: AttemptPatch, now: real)
    : (r: Result<map<string, Attempt>, AttemptError>)
    requires forall k :: k in store ==> store[k].id == k
    ensures attemptId !in store ==> r == Err(AttemptNotFound(attemptId))
    ensures attemptId in store ==>
      (r.Err? <==> patch.triesCount.GetOr(store[attemptId].triesCount) < 0)
    ensures attemptId in store && patch.triesCount.Some? && patch.triesCount.value < 0 ==>
      r == Err(TriesRejected(patch.triesCount.value))
    ensures r.Ok? ==> r.value.Keys == store.Keys
    ensures r.Ok? ==> forall k :: k in store && k != attemptId ==> r.value[k] == store[k]
    ensures r.Ok? ==> r.value[attemptId] == ApplyPatch(store[attemptId], patch, now)
    ensures r.Ok? ==> r.value[attemptId].triesCount >= 0
  {
    if attemptId !in store then Err(AttemptNotFound(attemptId))
    else
      var att := ApplyPatch(store[attemptId], patch, now);
      if att.triesCount < 0 then Err(TriesRejected(att.triesCount))
      else Ok(store[attemptId := att])
  }

  /** `record_try` adds exactly one wrong try and changes nothing else. */
  lemma RecordTryCountsOne(att: Attempt, now: real)
    ensures var r := ApplyAction(att, "record_try", now);
      r.Ok? && r.value.triesCount == att.triesCount + 1
      && r.value.(triesCount := att.triesCount) == att
  {
  }

  /** Using a hint or marking solved twice in a row is the same as doing it once. */
  lemma FlagActionsIdempotent(att: Attempt, now: real)
    ensures ApplyAction(ApplyAction(att, "use_hint", now).value, "use_hint", now) == ApplyAction(att, "use_hint", now)
    ensures ApplyAction(ApplyAction(att, "mark_solved", now).value, "mark_solved", now) == ApplyAction(att, "mark_solved", now)
  {
  }

  /** Once an attempt is solved through the actions, the derived rating is never 1. */
  lemma SolvedNeverRatedAgain(att: Attempt, now: real)
    ensures var s := ApplyAction(att, "mark_solved", now).value;
      DetermineRating(s.solved, s.triesCount, s.hintUsed) >= 2
  {
  }

  /** Recording a try never lowers the rating derived from a solved attempt's counters. */
  lemma MoreTriesNeverRateHigher(att: Attempt, now: real)
    requires att.solved
    ensures var t := ApplyAction(att, "record_try", now).value;
      DetermineRating(t.solved, t.triesCount, t.hintUsed) <= DetermineRating(att.solved, att.triesCount, att.hintUsed)
  {
  }
}

=== FILE: fsrs.dfy ===
/**
  The FSRS-style memory scheduler for one (player, puzzle) pair.

  Both copies of the update rule in the source, `FSRSMemoryService.update_memory`
  and `FSRSMemory.update_memory`, compute the same thing; `UpdateMemory` models
  them both. Instants are real numbers counted in days, so the source's
  `total_seconds() / (24 * 3600)` is plain subtraction here.
*/
module Fsrs {
  import opened Wrappers
  import opened Numerics

  /** A point in time, in days. */
  type Instant = real

  /** One FSRS memory record: the scheduler state of a player on a puzzle. */
  datatype Memory = Memory(
    id: string,
    puzzle: string,
    difficulty: real,
    stability: real,
    lastReview: Option<Instant>,
    nextReview: Option<Instant>)

  /** The Python exceptions the scheduler arithmetic can raise. */
  datatype MathError =
    | ZeroDivision   // `elapsed_days / stability` with a zero stability
    | DomainError    // `math.sqrt` of a negative number

  const DefaultDifficulty: real := 2.0
  const DefaultStability: real := 0.5
  const DesiredRetention: real := 0.9
  const TriesPenalty: real := 0.1
  const MaxPenalisedTries: int := 3
  const HintPenalty: real := 0.2
  const LapseMultiplier: real := 0.2
  const SpacingFloor: real := 0.1
  const MaxSpacing: real := 2.0
  const MinDifficulty: real := 1.0
  const MaxDifficulty: real := 3.0

  /** The record created for a pair that has never been reviewed. */
  function NewMemory(id: string, puzzle: string): (m: Memory)
    ensures m.lastReview.None? && m.nextReview.None?
    ensures MinDifficulty <= m.difficulty <= MaxDifficulty && m.stability > 0.0
  {
    Memory(id, puzzle, DefaultDifficulty, DefaultStability, None, None)
  }

  /** `initial_stability.get(rating, 1.0)`: stability after the very first review. */
  function InitialStability(rating: int): (s: real)
    ensures 0.5 <= s <= 7.0
  {
    if rating == 1 then 0.5
    else if rating == 2 then 1.2
    else if rating == 3 then 3.0
    else if rating == 4 then 7.0
    else 1.0
  }

  /** `stability_multiplier.get(rating, 1.5)`: growth factor of a successful review. */
  function StabilityMultiplier(rating: int): (f: real)
    ensures 0.2 <= f <= 2.0
    ensures rating != 1 ==> 1.1 <= f
  {
    if rating == 1 then LapseMultiplier
    else if rating == 2 then 1.1
    else if rating == 3 then 1.5
    else if rating == 4 then 2.0
    else 1.5
  }

  /** `difficulty_adjustment.get(rating, 0)`: the rating's own difficulty step. */
  function DifficultyAdjustment(rating: int): (d: real)
    ensures -0.1 <= d <= 0.1
    ensures (d > 0.0) <==> (rating == 1 || rating == 2)
  {
    if rating == 1 then 0.1
    else if rating == 2 then 0.05
    else if rating == 3 then -0.05
    else if rating == 4 then -0.1
    else 0.0
  }

  /** Extra difficulty from wrong tries: 0.1 per try, at most three tries, none for `tries <= 0`. */
  function TriesPenaltyFor(tries: int): (p: real)
    ensures 0.0 <= p <= 0.3
    ensures tries <= 0 <==> p == 0.0
  {
    if tries > 0 then TriesPenalty * MinInt(tries, MaxPenalisedTries) as real else 0.0
  }

  /** Difficulty after the additive steps of one review, before clamping. */
  function PenalisedDifficulty(d: real, rating: int, tries: int, hintUsed: bool): real {
    d + DifficultyAdjustment(rating) + TriesPenaltyFor(tries) + (if hintUsed then HintPenalty else 0.0)
  }

  /** `max(1.0, min(3.0, x))`: the point of [1.0, 3.0] nearest to `x`. */
  function ClampDifficulty(x: real): (c: real)
    ensures MinDifficulty <= c <= MaxDifficulty
    ensures x <= MinDifficulty ==> c == MinDifficulty
    ensures x >= MaxDifficulty ==> c == MaxDifficulty
    ensures MinDifficulty <= x <= MaxDifficulty ==> c == x
  {
    Max(MinDifficulty, Min(MaxDifficulty, x))
  }

  /** The difficulty stored after a review. */
  function NewDifficulty(d: real, rating: int, tries: int, hintUsed: bool): (d': real)
    ensures MinDifficulty <= d' <= MaxDifficulty
  {
    ClampDifficulty(PenalisedDifficulty(d, rating, tries, hintUsed))
  }

  /**
    `calculate_retrievability(stability, elapsed_days)`: probability of recall
    after `elapsed` days. Python raises ZeroDivisionError for a zero stability.
  */
  function RetrievabilityAfter(a: Analysis, stability: real, elapsed: real): (r: Result<real, MathError>)
    requires Lawful(a)
    ensures r.Err? <==> stability == 0.0
    ensures r.Err? ==> r.error == ZeroDivision
    ensures stability > 0.0 && elapsed >= 0.0 ==> r.Ok? && 0.0 < r.value <= 1.0
    ensures stability != 0.0 && elapsed == 0.0 ==> r == Ok(1.0)
  {
    if stability == 0.0 then Err(ZeroDivision)
    else
      var x := -elapsed / stability;
      assert stability > 0.0 && elapsed >= 0.0 ==> x <= 0.0;
      Ok(a.exp(x))
  }

  /**
    `FSRSMemory.calculate_retrievability()` at time `now`: 1.0 for a record that
    was never reviewed, otherwise the decay since its last review.
  */
  function Retrievability(a: Analysis, m: Memory, now: Instant): (r: Result<real, MathError>)
    requires Lawful(a)
    ensures m.lastReview.None? ==> r == Ok(1.0)
    ensures r.Err? <==> m.lastReview.Some? && m.stability == 0.0
    ensures m.stability > 0.0 && (m.lastReview.Some? ==> m.lastReview.value <= now) ==> r.Ok? && 0.0 < r.value <= 1.0
  {
    match m.lastReview
    case None => Ok(1.0)
    case Some(last) => RetrievabilityAfter(a, m.stability, now - last)
  }

  /**
    `calculate_next_interval(stability, desired_retention)`: days until recall
    is predicted to fall to `retention`. `math.log` rejects a non-positive argument.
  */
  function NextInterval(a: Analysis, stability: real, retention: real): (days: real)
    requires Lawful(a)
    requires 0.0 < retention
    ensures retention < 1.0 && stability >= 0.0 ==> days >= 0.0
    ensures retention < 1.0 ==> (days > 0.0 <==> stability > 0.0)
  {
    assert retention < 1.0 ==> a.ln(retention) < 0.0 by {
      if retention < 1.0 { LnOfFractionNegative(a, retention); }
    }
    -stability * a.ln(retention)
  }

  /**
    `min(2.0, sqrt(elapsed_days / max(stability, 0.1)))`: the spacing bonus of
    a successful review. Python's `math.sqrt` raises for a negative argument.
  */
  function SpacingFactor(a: Analysis, elapsed: real, stability: real): (f: Result<real, MathError>)
    requires Lawful(a)
    ensures f.Err? <==> elapsed < 0.0
    ensures f.Err? ==> f.error == DomainError
    ensures f.Ok? ==> 0.0 <= f.value <= MaxSpacing
    ensures f.Ok? ==> (f.value == 0.0 <==> elapsed == 0.0)
  {
    var ratio := elapsed / Max(stability, SpacingFloor);
    if ratio < 0.0 then Err(DomainError)
    else
      assert ratio == 0.0 <==> elapsed == 0.0;
      Ok(Min(MaxSpacing, a.sqrt(ratio)))
  }

  /** Stores the new parameters and schedules the next review `NextInterval` days after `now`. */
  function Reschedule(a: Analysis, m: Memory, difficulty: real, stability: real, now: Instant): (m': Memory)
    requires Lawful(a)
    ensures m'.id == m.id && m'.puzzle == m.puzzle
    ensures m'.difficulty == difficulty && m'.stability == stability
    ensures m'.lastReview == Some(now) && m'.nextReview.Some?
    ensures stability >= 0.0 ==> m'.nextReview.value >= now
    ensures stability >= 0.0 ==> (m'.nextReview.value > now <==> stability > 0.0)
  {
    m.(difficulty := difficulty, stability := stability,
       lastReview := Some(now), nextReview := Some(now + NextInterval(a, stability, DesiredRetention)))
  }

  /**
    `update_memory(memory, rating, solved, tries_count, hint_used)` at time `now`.

    A first review takes its stability from the initial table; a later lapse
    (rating 1) keeps a fifth of the stability; any other rating multiplies it
    by the rating's multiplier and the spacing bonus. A later review of a
    record whose stability is 0 raises ZeroDivisionError while computing its
    retrievability, and a non-lapse review dated before the previous one
    raises in `math.sqrt`; in both cases nothing is stored.
  */
  function UpdateMemory(a: Analysis, m: Memory, rating: int, tries: int, hintUsed: bool, now: Instant)
    : (r: Result<Memory, MathError>)
    requires Lawful(a)
    ensures r.Err? <==> m.lastReview.Some? && (m.stability == 0.0 || (rating != 1 && now < m.lastReview.value))
    ensures r.Ok? ==> r.value.id == m.id && r.value.puzzle == m.puzzle
    ensures r.Ok? ==> r.value.lastReview == Some(now) && r.value.nextReview.Some?
    ensures r.Ok? ==> r.value.difficulty == NewDifficulty(m.difficulty, rating, tries, hintUsed)
    ensures r.Ok? ==> MinDifficulty <= r.value.difficulty <= MaxDifficulty
    ensures r.Ok? && m.stability >= 0.0 ==> r.value.stability >= 0.0 && r.value.nextReview.value >= now
  {
    var difficulty := NewDifficulty(m.difficulty, rating, tries, hintUsed);
    match m.lastReview
    case None =>
      Ok(Reschedule(a, m, difficulty, InitialStability(rating), now))
    case Some(last) =>
      var elapsed := now - last;
      match RetrievabilityAfter(a, m.stability, elapsed)
      case Err(e) => Err(e)
      case Ok(_) =>
        if rating == 1 then
          Ok(Reschedule(a, m, difficulty, m.stability * LapseMultiplier, now))
        else
          match SpacingFactor(a, elapsed, m.stability)
          case Err(e) => Err(e)
          case Ok(spacing) =>
            assert m.stability >= 0.0 ==> m.stability * StabilityMultiplier(rating) * spacing >= 0.0;
            Ok(Reschedule(a, m, difficulty, m.stability * (StabilityMultiplier(rating) * spacing), now))
  }
}

=== FILE: fsrs_properties.dfy ===
/** Properties of the scheduler that relate several calls or fix concrete table values. */
module FsrsProperties {
  import opened Wrappers
  import opened Numerics
  import opened Fsrs

  /** A first review takes the rating's initial stability, whatever the record held before. */
  lemma FirstReviewStability(a: Analysis, m: Memory, rating: int, tries: int, hintUsed: bool, now: Instant)
    requires Lawful(a)
    requires m.lastReview.None?
    ensures UpdateMemory(a, m, rating, tries, hintUsed, now).Ok?
    ensures var s := UpdateMemory(a, m, rating, tries, hintUsed, now).value.stability;
      && (rating == 1 ==> s == 0.5)
      && (rating == 2 ==> s == 1.2)
      && (rating == 3 ==> s == 3.0)
      && (rating == 4 ==> s == 7.0)
      && (rating !in {1, 2, 3, 4} ==> s == 1.0)
  {
  }

  /** A lapse on a later review keeps a fifth of the stability, however long the gap was. */
  lemma LapseIgnoresElapsed(a: Analysis, m: Memory, tries: int, hintUsed: bool, now1: Instant, now2: Instant)
    requires Lawful(a)
    requires m.lastReview.Some? && m.stability != 0.0
    ensures UpdateMemory(a, m, 1, tries, hintUsed, now1).Ok?
    ensures UpdateMemory(a, m, 1, tries, hintUsed, now2).Ok?
    ensures UpdateMemory(a, m, 1, tries, hintUsed, now1).value.stability == m.stability * 0.2
    ensures UpdateMemory(a, m, 1, tries, hintUsed, now2).value.stability == m.stability * 0.2
  {
  }

  /**
    A later non-lapse review multiplies stability by the rating's multiplier
    and by a spacing factor in [0, 2] that grows with the gap since the last review.
  */
  lemma SuccessfulReviewStability(a: Analysis, m: Memory, rating: int, tries: int, hintUsed: bool, now: Instant)
    requires Lawful(a)
    requires m.lastReview.Some? && m.stability != 0.0 && rating != 1
    requires m.lastReview.value <= now
    ensures var r := UpdateMemory(a, m, rating, tries, hintUsed, now);
      var elapsed := now - m.lastReview.value;
      var spacing := Min(2.0, a.sqrt(elapsed / Max(m.stability, 0.1)));
      && r.Ok?
      && 0.0 <= spacing <= 2.0
      && r.value.stability == m.stability * StabilityMultiplier(rating) * spacing
  {
    var elapsed := now - m.lastReview.value;
    var sp := SpacingFactor(a, elapsed, m.stability);
    assert sp.Ok?;
    assert m.stability * (StabilityMultiplier(rating) * sp.value) == m.stability * StabilityMultiplier(rating) * sp.value;
  }

  /**
    Starting from a positive stability, a later non-lapse review keeps stability
    positive exactly when some time has passed since the previous review.
  */
  lemma StabilityPositiveIffTimePassed(a: Analysis, m: Memory, rating: int, tries: int, hintUsed: bool, now: Instant)
    requires Lawful(a)
    requires m.lastReview.Some? && m.stability > 0.0 && rating != 1
    requires m.lastReview.value <= now
    ensures UpdateMemory(a, m, rating, tries, hintUsed, now).Ok?
    ensures UpdateMemory(a, m, rating, tries, hintUsed, now).value.stability > 0.0 <==> now > m.lastReview.value
  {
    var elapsed := now - m.lastReview.value;
    var sp := SpacingFactor(a, elapsed, m.stability);
    assert sp.Ok?;
    var f := StabilityMultiplier(rating) * sp.value;
    assert f > 0.0 <==> elapsed > 0.0;
    assert m.stability * f > 0.0 <==> f > 0.0;
  }

  /** A record is healthy when its difficulty is in range and its stability positive. */
  ghost predicate Healthy(m: Memory) {
    MinDifficulty <= m.difficulty <= MaxDifficulty && m.stability > 0.0
  }

  /**
    Reviews keep a record healthy and push the next review strictly into the
    future, provided a later non-lapse review comes strictly after the previous one.
  */
  lemma UpdatePreservesHealth(a: Analysis, m: Memory, rating: int, tries: int, hintUsed: bool, now: Instant)
    requires Lawful(a)
    requires m.stability > 0.0
    requires m.lastReview.Some? && rating != 1 ==> m.lastReview.value < now
    ensures UpdateMemory(a, m, rating, tries, hintUsed, now).Ok?
    ensures Healthy(UpdateMemory(a, m, rating, tries, hintUsed, now).value)
    ensures UpdateMemory(a, m, rating, tries, hintUsed, now).value.nextReview.value > now
  {
    if m.lastReview.Some? && rating != 1 {
      StabilityPositiveIffTimePassed(a, m, rating, tries, hintUsed, now);
    }
  }

  /**
    Two non-lapse reviews at the same instant drive stability to 0 and schedule
    the next review for that same instant; every later review of the record
    then fails with ZeroDivisionError.
  */
  lemma SameInstantReviewZeroesStability(
    a: Analysis, m: Memory, rating: int, tries: int, hintUsed: bool,
    rating2: int, tries2: int, hintUsed2: bool, later: Instant)
    requires Lawful(a)
    requires m.lastReview.Some? && m.stability > 0.0 && rating != 1
    ensures var r := UpdateMemory(a, m, rating, tries, hintUsed, m.lastReview.value);
      && r.Ok?
      && r.value.stability == 0.0
      && r.value.nextReview == Some(m.lastReview.value)
      && UpdateMemory(a, r.value, rating2, tries2, hintUsed2, later) == Err(ZeroDivision)
  {
    StabilityPositiveIffTimePassed(a, m, rating, tries, hintUsed, m.lastReview.value);
  }

  /** Wrong tries beyond the third add nothing to difficulty. */
  lemma TriesPenaltyCapped(d: real, rating: int, tries: int, hintUsed: bool)
    requires tries >= 3
    ensures NewDifficulty(d, rating, tries, hintUsed) == NewDifficulty(d, rating, 3, hintUsed)
  {
  }

  /** More wrong tries never make a puzzle easier. */
  lemma DifficultyMonotoneInTries(d: real, rating: int, tries1: int, tries2: int, hintUsed: bool)
    requires tries1 <= tries2
    ensures NewDifficulty(d, rating, tries1, hintUsed) <= NewDifficulty(d, rating, tries2, hintUsed)
  {
    assert TriesPenaltyFor(tries1) <= TriesPenaltyFor(tries2);
  }

  /** Using a hint never makes a puzzle easier. */
  lemma HintNeverEases(d: real, rating: int, tries: int)
    ensures NewDifficulty(d, rating, tries, false) <= NewDifficulty(d, rating, tries, true)
  {
  }

  /** A fresh record reviewed once with rating 3, no wrong tries and no hint. */
  lemma DefaultFirstGoodReview(a: Analysis, id: string, puzzle: string, now: Instant)
    requires Lawful(a)
    ensures var r := UpdateMemory(a, NewMemory(id, puzzle), 3, 0, false, now);
      r.Ok? && r.value.stability == 3.0 && r.value.difficulty == 1.95
  {
  }

  /**
    The next-review interval inverts the decay: after `NextInterval(S, r)` days
    the retrievability is exactly `r`.
  */
  lemma IntervalRoundTrip(a: Analysis, stability: real, retention: real)
    requires Lawful(a)
    requires stability > 0.0 && 0.0 < retention < 1.0
    ensures RetrievabilityAfter(a, stability, NextInterval(a, stability, retention)) == Ok(retention)
  {
    var l := a.ln(retention);
    var days := NextInterval(a, stability, retention);
    assert days == -stability * l;
    assert -days / stability == l;
  }

  /** At its scheduled next review, a healthy record is recalled with the desired retention 0.9. */
  lemma ScheduledReviewMeetsRetention(a: Analysis, m: Memory, rating: int, tries: int, hintUsed: bool, now: Instant)
    requires Lawful(a)
    requires m.stability > 0.0
    requires m.lastReview.Some? && rating != 1 ==> m.lastReview.value < now
    ensures var m' := UpdateMemory(a, m, rating, tries, hintUsed, now).value;
      Retrievability(a, m', m'.nextReview.value) == Ok(DesiredRetention)
  {
    UpdatePreservesHealth(a, m, rating, tries, hintUsed, now);
    var m' := UpdateMemory(a, m, rating, tries, hintUsed, now).value;
    IntervalRoundTrip(a, m'.stability, DesiredRetention);
    assert m'.nextReview.value - now == NextInterval(a, m'.stability, DesiredRetention);
  }

  /** Recall probability never rises as time passes. */
  lemma RetrievabilityDecays(a: Analysis, stability: real, e1: real, e2: real)
    requires Lawful(a)
    requires stability > 0.0 && e1 <= e2
    ensures RetrievabilityAfter(a, stability, e2).value <= RetrievabilityAfter(a, stability, e1).value
  {
    assert -e2 / stability <= -e1 / stability;
  }
}

=== FILE: ingestion.dfy ===
/**
  Importing a player's games from the Chess.com monthly archives: archive URLs,
  which archives a full scrape visits, the fields kept from each game, and the
  monthly update that skips recently processed archives and counts new games.
*/
module Ingestion {
  import opened Wrappers
  import opened PyStrings
  import opened Sequences
  import opened Sorting

  // ---------------------------------------------------------------------------
  // Archive URLs
  // ---------------------------------------------------------------------------

  /** Why an archive URL does not name a year and a month. */
  datatype UrlError =
    | MissingSegment                  // fewer than two path segments (IndexError)
    | NotAnInteger(segment: string)   // a segment `int()` rejects (ValueError)

  const PlayerApi := "https://api.chess.com/pub/player/"

  /**
    The year and month of an archive URL: its last two path segments once
    surrounding slashes are stripped. The year is read first.
  */
  function ParseArchiveUrl(url: string): (r: Result<(int, int), UrlError>)
    ensures '/' !in Strip(url, '/') ==> r == Err(MissingSegment)
    ensures ParseInt(LastPiece(Strip(url, '/'), '/')).None? ==> r.Err?
  {
    var path := Strip(url, '/');
    var parts := Split(path, '/');
    assert '/' !in path ==> |parts| == 1 by {
      if '/' !in path { SplitWithoutSeparator(path, '/'); }
    }
    assert LastPiece(path, '/') == parts[|parts| - 1];
    ParseSegments(parts)
  }

  /** The year and month read from the last two path pieces, the year first. */
  function ParseSegments(parts: seq<string>): (r: Result<(int, int), UrlError>)
    requires |parts| >= 1
    ensures |parts| < 2 ==> r == Err(MissingSegment)
    ensures ParseInt(parts[|parts| - 1]).None? ==> r.Err?
    ensures r.Ok? ==>
      && |parts| >= 2
      && ParseInt(parts[|parts| - 2]) == Some(r.value.0)
      && ParseInt(parts[|parts| - 1]) == Some(r.value.1)
  {
    if |parts| < 2 then Err(MissingSegment)
    else
      var yearText := parts[|parts| - 2];
      var monthText := parts[|parts| - 1];
      match (ParseInt(yearText), ParseInt(monthText))
      case (None, _) => Err(NotAnInteger(yearText))
      case (_, None) => Err(NotAnInteger(monthText))
      case (Some(year), Some(month)) => Ok((year, month))
  }

  /** The archive of one player's games for one month. */
  function ArchiveUrl(username: string, year: int, month: int): (url: string)
    ensures |url| > 0 && url[0] != '/' && url[|url| - 1] != '/'
    ensures var tail := "/" + IntToStr(year) + "/" + Pad2(month);
      |tail| <= |url| && url[|url| - |tail|..] == tail
    ensures 0 <= month <= 99 ==> url[|url| - 3] == '/' && AllDigits(url[|url| - 2..])
  {
    var head := GamesPath(username);
    var tail := ['/'] + IntToStr(year) + ['/'] + Pad2(month);
    assert (head + tail)[|head + tail| - |tail|..] == tail;
    head + tail
  }

  /** The games path of a player under the public API. */
  function GamesPath(username: string): (p: string)
    ensures |p| > 0 && p[0] == 'h'
  {
    PlayerApi + username + "/games"
  }

  /** A URL without surrounding slashes whose last two segments are decimal literals. */
  lemma ParseLastTwoSegments(head: string, yearText: string, monthText: string, year: int, month: int)
    requires |head| > 0 && head[0] != '/' && |monthText| > 0 && monthText[|monthText| - 1] != '/'
    requires '/' !in yearText && '/' !in monthText
    requires ParseInt(yearText) == Some(year) && ParseInt(monthText) == Some(month)
    ensures ParseArchiveUrl(head + ['/'] + yearText + ['/'] + monthText) == Ok((year, month))
  {
    var url := head + ['/'] + yearText + ['/'] + monthText;
    StripUnchanged(url, '/');
    SplitLastTwo(head, '/', yearText, monthText);
    UrlSegments(url);
    SegmentsValue(Split(url, '/'), year, month);
  }

  /** A path without surrounding slashes is read from its own pieces. */
  lemma UrlSegments(url: string)
    requires Strip(url, '/') == url
    ensures ParseArchiveUrl(url) == ParseSegments(Split(url, '/'))
  {
  }

  /** Two parsing last pieces give their values. */
  lemma SegmentsValue(parts: seq<string>, year: int, month: int)
    requires |parts| >= 2
    requires ParseInt(parts[|parts| - 2]) == Some(year) && ParseInt(parts[|parts| - 1]) == Some(month)
    ensures ParseSegments(parts) == Ok((year, month))
  {
  }

  /** Parsing the URL built for a month gives back that year and month. */
  lemma ArchiveUrlRoundTrip(username: string, year: int, month: int)
    ensures ParseArchiveUrl(ArchiveUrl(username, year, month)) == Ok((year, month))
  {
    IntRoundTrip(year);
    Pad2RoundTrip(month);
    ParseLastTwoSegments(GamesPath(username), IntToStr(year), Pad2(month), year, month);
    ArchiveUrlShape(username, year, month);
  }

  lemma ArchiveUrlShape(username: string, year: int, month: int)
    ensures ArchiveUrl(username, year, month) == GamesPath(username) + ['/'] + IntToStr(year) + ['/'] + Pad2(month)
  {
    var head, y, m := GamesPath(username), IntToStr(year), Pad2(month);
    AppendFour(head, ['/'] + y, ['/'], m);
    assert head + (['/'] + y) == head + ['/'] + y;
  }

  /** Regrouping a concatenation of four texts. */
  lemma AppendFour(a: string, b: string, c: string, d: string)
    ensures a + (b + c + d) == a + b + c + d
  {
  }

  // ---------------------------------------------------------------------------
  // Which archives a full scrape visits
  // ---------------------------------------------------------------------------

  /** The archives not yet marked processed, in their given order. */
  function Unprocessed(archives: seq<string>, processed: set<string>): (r: seq<string>)
    ensures IsSubsequence(r, archives)
    ensures forall x :: x in r <==> x in archives && x !in processed
  {
    if |archives| == 0 then []
    else
      var rest := Unprocessed(archives[1..], processed);
      assert archives == [archives[0]] + archives[1..];
      if archives[0] in processed then
        SubsequenceOfCons(rest, archives[0], archives[1..]);
        rest
      else
        assert ([archives[0]] + rest)[1..] == rest;
        [archives[0]] + rest
  }

  /**
    The archives to visit before the limit applies, from the newest-first list:
    all of them, or with `onlyNew` the unprocessed ones with the newest always
    kept in front (an empty URL counts as absent).
  */
  function Candidates(sorted: seq<string>, processed: set<string>, onlyNew: bool): (pool: seq<string>)
    requires |sorted| > 0
    ensures IsSubsequence(pool, sorted)
    ensures !onlyNew ==> pool == sorted
    ensures onlyNew ==>
      forall x :: x in pool <==> x in sorted && (x !in processed || (x == sorted[0] && x != ""))
    ensures !onlyNew || sorted[0] != "" ==> |pool| > 0 && pool[0] == sorted[0]
  {
    if !onlyNew then
      PrefixIsSubsequence(sorted, sorted);
      sorted
    else
      var newest := sorted[0];
      var unprocessed := Unprocessed(sorted, processed);
      if newest != "" && newest !in unprocessed then
        assert ([newest] + unprocessed)[1..] == unprocessed;
        assert IsSubsequence(unprocessed, sorted[1..]);
        [newest] + unprocessed
      else
        unprocessed
  }

  /** A positive `limit` shorter than the list keeps only its first `limit` entries. */
  function TakeLimit(pool: seq<string>, limit: Option<int>): (r: seq<string>)
    ensures r <= pool
    ensures limit.Some? && limit.value > 0 ==> |r| <= limit.value
    ensures limit.Some? && limit.value > 0 && |pool| >= limit.value ==> |r| == limit.value
    ensures limit.None? || limit.value <= 0 ==> r == pool
    ensures |pool| > 0 ==> |r| > 0
  {
    if limit.Some? && limit.value > 0 && limit.value < |pool| then pool[..limit.value] else pool
  }

  /**
    The archives a full scrape visits, newest first; `None` when the player has
    no archives.
  */
  function SelectArchives(archives: seq<string>, processed: set<string>, onlyNew: bool, limit: Option<int>)
    : (r: Option<seq<string>>)
    ensures r.None? <==> |archives| == 0
    ensures r.Some? ==> IsSubsequence(r.value, Sort(archives, NewestFirst()))
    ensures r.Some? ==> SortedBy(r.value, NewestFirst())
    ensures r.Some? ==> forall x :: x in r.value ==> x in archives
    ensures r.Some? && limit.Some? && limit.value > 0 ==> |r.value| <= limit.value
    ensures r.Some? ==>
      var pool := Candidates(Sort(archives, NewestFirst()), processed, onlyNew);
      r.value <= pool
      && |r.value| == (if limit.Some? && 0 < limit.value < |pool| then limit.value else |pool|)
  {
    if |archives| == 0 then None
    else
      var sorted := Sort(archives, NewestFirst());
      var pool := Candidates(sorted, processed, onlyNew);
      var chosen := TakeLimit(pool, limit);
      assert IsSubsequence(chosen, sorted) by {
        SubsequenceTake(pool, sorted, |chosen|);
        assert pool[..|chosen|] == chosen;
      }
      SortedMembers(archives);
      SubsequenceMembers(chosen, sorted);
      SubsequenceKeepsOrder(chosen, sorted, NewestFirst());
      Some(chosen)
  }

  /** Sorting keeps exactly the same archives. */
  lemma SortedMembers(archives: seq<string>)
    ensures forall x :: x in archives <==> x in Sort(archives, NewestFirst())
  {
    var sorted := Sort(archives, NewestFirst());
    assert forall x :: x in archives <==> x in multiset(archives);
    assert forall x :: x in sorted <==> x in multiset(sorted);
  }

  /**
    With `onlyNew` and no truncation, a scrape visits exactly the unprocessed
    archives and the newest one.
  */
  lemma OnlyNewVisits(archives: seq<string>, processed: set<string>, limit: Option<int>)
    requires |archives| > 0
    requires limit.None? || limit.value <= 0 || limit.value >= |archives|
    ensures var newest := Sort(archives, NewestFirst())[0];
      forall x :: x in SelectArchives(archives, processed, true, limit).value <==>
        x in archives && (x !in processed || (x == newest && x != ""))
  {
    var sorted := Sort(archives, NewestFirst());
    var pool := Candidates(sorted, processed, true);
    SortedMembers(archives);
    SubsequenceLength(pool, sorted);
    assert TakeLimit(pool, limit) == pool;
  }

  /** Without `onlyNew` and without truncation, a scrape visits every archive once. */
  lemma AllArchivesVisited(archives: seq<string>, processed: set<string>, limit: Option<int>)
    requires |archives| > 0
    requires limit.None? || limit.value <= 0 || limit.value >= |archives|
    ensures multiset(SelectArchives(archives, processed, false, limit).value) == multiset(archives)
  {
    var sorted := Sort(archives, NewestFirst());
    assert Candidates(sorted, processed, false) == sorted;
    assert TakeLimit(sorted, limit) == sorted;
  }

  /** The first archive visited is the latest one: every archive sorts at or before it. */
  lemma NewestVisitedFirst(archives: seq<string>, processed: set<string>, onlyNew: bool, limit: Option<int>)
    requires |archives| > 0
    requires !onlyNew || exists x :: x in archives && x != ""
    ensures var r := SelectArchives(archives, processed, onlyNew, limit).value;
      |r| > 0 && r[0] == Sort(archives, NewestFirst())[0] && forall x :: x in archives ==> StrLe(x, r[0])
  {
    var sorted := Sort(archives, NewestFirst());
    SortedMembers(archives);
    forall x | x in archives ensures StrLe(x, sorted[0]) {
      var i :| 0 <= i < |sorted| && sorted[i] == x;
      if i == 0 { StrLeTotal(x, x); }
    }
    if onlyNew {
      var x :| x in archives && x != "";
      assert StrLe(x, sorted[0]);
    }
  }

  // ---------------------------------------------------------------------------
  // Fields kept from one game
  // ---------------------------------------------------------------------------

  /** One side of a game as the API reports it; absent keys are `None`. */
  datatype Side = Side(username: Option<string>, rating: Option<int>, result: Option<string>)

  datatype Accuracies = Accuracies(white: Option<real>, black: Option<real>)

  /** A game object from an archive; every key may be missing. */
  datatype GameData = GameData(
    uuid: Option<string>, url: Option<string>, pgn: Option<string>,
    timeControl: Option<string>, endTime: Option<int>, rated: Option<bool>,
    white: Option<Side>, black: Option<Side>, timeClass: Option<string>,
    eco: Option<string>, ecoUrl: Option<string>, accuracies: Option<Accuracies>,
    fen: Option<string>)

  /** The flat record stored for a game. */
  datatype GameRecord = GameRecord(
    gameUuid: string, playerUsername: string, url: string, pgn: string,
    timeControl: string, endTime: int, rated: bool,
    whiteUsername: string, whiteRating: int, whiteResult: string,
    blackUsername: string, blackRating: int, blackResult: string,
    playerRating: int, timeClass: string, eco: string, opening: string,
    whiteAccuracy: real, blackAccuracy: real, fen: string)

  const NoSide := Side(None, None, None)

  /** The opening name: the last path segment of the ECO URL with dashes read as spaces. */
  function OpeningName(ecoUrl: string): (name: string)
    ensures '-' !in name && '/' !in name
    ensures ecoUrl == "" ==> name == ""
  {
    if ecoUrl == "" then "" else ReplaceChar(LastPiece(ecoUrl, '/'), '-', ' ')
  }

  /**
    The record kept for a game fetched for `username`. The uuid falls back to
    the last segment of the game URL; the player's rating is the rating of the
    side whose username matches, ignoring case, and black's otherwise.
  */
  function ProcessGame(data: GameData, username: string): (g: GameRecord)
    ensures g.playerUsername == username
    ensures data.uuid.Some? ==> g.gameUuid == data.uuid.value
    ensures data.uuid.None? ==> '/' !in g.gameUuid
    ensures data.url.Some? ==> g.url == data.url.value
    ensures data.url.None? ==> g.url == ""
    ensures data.white.Some? && data.white.value.username.Some? ==> g.whiteUsername == data.white.value.username.value
    ensures data.black.Some? && data.black.value.username.Some? ==> g.blackUsername == data.black.value.username.value
    ensures data.white.Some? && data.white.value.rating.Some? ==> g.whiteRating == data.white.value.rating.value
    ensures data.black.Some? && data.black.value.rating.Some? ==> g.blackRating == data.black.value.rating.value
    ensures data.white.None? || data.white.value.rating.None? ==> g.whiteRating == 0
    ensures data.black.None? || data.black.value.rating.None? ==> g.blackRating == 0
    ensures data.endTime.Some? ==> g.endTime == data.endTime.value
    ensures data.timeClass.Some? ==> g.timeClass == data.timeClass.value
    ensures Lower(g.whiteUsername) == Lower(username) ==> g.playerRating == g.whiteRating
    ensures Lower(g.whiteUsername) != Lower(username) ==> g.playerRating == g.blackRating
    ensures '-' !in g.opening && '/' !in g.opening
    ensures data.ecoUrl.None? ==> g.opening == ""
    ensures data.accuracies.None? ==> g.whiteAccuracy == 0.0 && g.blackAccuracy == 0.0
  {
    var url := data.url.GetOr("");
    var white := data.white.GetOr(NoSide);
    var black := data.black.GetOr(NoSide);
    var accuracies := data.accuracies.GetOr(Accuracies(None, None));
    var whiteUsername := white.username.GetOr("");
    var whiteRating := white.rating.GetOr(0);
    var blackRating := black.rating.GetOr(0);
    GameRecord(
      data.uuid.GetOr(LastPiece(url, '/')), username, url, data.pgn.GetOr(""),
      data.timeControl.GetOr(""), data.endTime.GetOr(0), data.rated.GetOr(false),
      whiteUsername, whiteRating, white.result.GetOr(""),
      black.username.GetOr(""), blackRating, black.result.GetOr(""),
      if Lower(whiteUsername) == Lower(username) then whiteRating else blackRating,
      data.timeClass.GetOr(""), data.eco.GetOr(""), OpeningName(data.ecoUrl.GetOr("")),
      accuracies.white.GetOr(0.0), accuracies.black.GetOr(0.0), data.fen.GetOr(""))
  }

  /** A game without a uuid is identified by the last segment of its URL. */
  lemma UuidFromUrl(data: GameData, username: string, prefix: string, id: string)
    requires data.uuid.None? && data.url == Some(prefix + "/" + id) && '/' !in id
    ensures ProcessGame(data, username).gameUuid == id
  {
    assert prefix + "/" + id == prefix + ['/'] + id;
    SplitAppend(prefix, '/', id);
  }

  /** The opening is the ECO page name with its dashes turned into spaces. */
  lemma OpeningFromEcoUrl(data: GameData, username: string, prefix: string, page: string)
    requires data.ecoUrl == Some(prefix + "/" + page) && '/' !in page
    ensures ProcessGame(data, username).opening == ReplaceChar(page, '-', ' ')
  {
    assert prefix + "/" + page == prefix + ['/'] + page;
    SplitAppend(prefix, '/', page);
  }

  // ---------------------------------------------------------------------------
  // The monthly update of one player
  // ---------------------------------------------------------------------------

  /** A stored archive row. */
  datatype ArchiveRecord = ArchiveRecord(
    player: string, year: int, month: int, url: string,
    processed: bool, processedAt: Option<real>)

  /** The stored games (by uuid and by URL, both unique) and archive rows. */
  datatype Store = Store(uuids: set<string>, urls: set<string>, archives: seq<ArchiveRecord>)

  /** One hour, in days. */
  const OneHour: real := 1.0 / 24.0

  predicate IsMonthOf(rec: ArchiveRecord, username: string, year: int, month: int) {
    rec.player == username && rec.year == year && rec.month == month
  }

  predicate ProcessedMonth(rec: ArchiveRecord, username: string, year: int, month: int) {
    IsMonthOf(rec, username, year, month) && rec.processed
  }

  /** The first processed row for the month, in storage order. */
  function FirstProcessed(archives: seq<ArchiveRecord>, username: string, year: int, month: int)
    : (r: Option<nat>)
    ensures r.None? <==> forall i :: 0 <= i < |archives| ==> !ProcessedMonth(archives[i], username, year, month)
    ensures r.Some? ==> r.value < |archives| && ProcessedMonth(archives[r.value], username, year, month)
    ensures r.Some? ==> forall j :: 0 <= j < r.value ==> !ProcessedMonth(archives[j], username, year, month)
  {
    if |archives| == 0 then None
    else if ProcessedMonth(archives[0], username, year, month) then Some(0)
    else match FirstProcessed(archives[1..], username, year, month)
      case None => None
      case Some(i) => Some(i + 1)
  }

  /** The first processed row for the month was processed less than an hour before `now`. */
  predicate RecentlyProcessed(archives: seq<ArchiveRecord>, username: string, year: int, month: int, now: real) {
    match FirstProcessed(archives, username, year, month)
    case None => false
    case Some(i) => archives[i].processedAt.Some? && archives[i].processedAt.value > now - OneHour
  }

  /**
    Whether the monthly update fetches an archive: always for the current
    month, otherwise unless it was processed within the last hour.
  */
  function ShouldProcessArchive(username: string, year: int, month: int, today: (int, int),
                                archives: seq<ArchiveRecord>, now: real): (b: bool)
    ensures (year, month) == today ==> b
    ensures !b <==>
      && (year, month) != today
      && exists i ::
           && 0 <= i < |archives|
           && ProcessedMonth(archives[i], username, year, month)
           && archives[i].processedAt.Some? && archives[i].processedAt.value > now - OneHour
           && forall j :: 0 <= j < i ==> !ProcessedMonth(archives[j], username, year, month)
  {
    (year, month) == today || !RecentlyProcessed(archives, username, year, month, now)
  }

  /** With at most one row per month, an archive is skipped iff some processed row for it is under an hour old. */
  lemma SkipIffRecentRow(username: string, year: int, month: int, today: (int, int),
                         archives: seq<ArchiveRecord>, now: real)
    requires forall i, j :: 0 <= i < j < |archives| ==>
      !(IsMonthOf(archives[i], username, year, month) && IsMonthOf(archives[j], username, year, month))
    ensures !ShouldProcessArchive(username, year, month, today, archives, now) <==>
      (year, month) != today &&
      exists rec ::
        && rec in archives && ProcessedMonth(rec, username, year, month)
        && rec.processedAt.Some? && rec.processedAt.value > now - OneHour
  {
    if (year, month) != today {
      if rec :| rec in archives && ProcessedMonth(rec, username, year, month) &&
                rec.processedAt.Some? && rec.processedAt.value > now - OneHour {
        var k :| 0 <= k < |archives| && archives[k] == rec;
        var f := FirstProcessed(archives, username, year, month);
        assert f == Some(k);
      }
    }
  }

  /** Why the archive row cannot be updated. */
  datatype ArchiveError = MultipleArchives

  /**
    Records that the month was processed at `now`: the single row for the
    month is marked processed; with no row, one is created unless another row
    already holds the URL (the failure is only logged); two or more rows for
    the month are an error.
  */
  function MarkProcessed(archives: seq<ArchiveRecord>, username: string, year: int, month: int,
                         url: string, now: real): (r: Result<seq<ArchiveRecord>, ArchiveError>)
    ensures r.Err? <==>
      exists i, j ::
        && 0 <= i < j < |archives|
        && IsMonthOf(archives[i], username, year, month) && IsMonthOf(archives[j], username, year, month)
    ensures r.Ok? && (exists i :: 0 <= i < |archives| && IsMonthOf(archives[i], username, year, month)) ==>
      |r.value| == |archives| &&
      forall i :: 0 <= i < |archives| ==>
        r.value[i] == if IsMonthOf(archives[i], username, year, month)
                      then archives[i].(processed := true, processedAt := Some(now))
                      else archives[i]
    ensures r.Ok? && (forall i :: 0 <= i < |archives| ==> !IsMonthOf(archives[i], username, year, month)) ==>
      if exists i :: 0 <= i < |archives| && archives[i].url == url then r.value == archives
      else r.value == archives + [ArchiveRecord(username, year, month, url, true, Some(now))]
  {
    if exists i, j :: 0 <= i < j < |archives| &&
         IsMonthOf(archives[i], username, year, month) && IsMonthOf(archives[j], username, year, month)
    then Err(MultipleArchives)
    else if exists i :: 0 <= i < |archives| && IsMonthOf(archives[i], username, year, month) then
      Ok(seq(|archives|, i requires 0 <= i < |archives| =>
        if IsMonthOf(archives[i], username, year, month)
        then archives[i].(processed := true, processedAt := Some(now))
        else archives[i]))
    else if exists i :: 0 <= i < |archives| && archives[i].url == url then Ok(archives)
    else Ok(archives + [ArchiveRecord(username, year, month, url, true, Some(now))])
  }

  /**
    Once a month is marked processed, an update within the next hour skips it
    (unless it is the current month, or the row could not be created).
  */
  lemma MarkedMonthSkippedWithinTheHour(archives: seq<ArchiveRecord>, username: string, year: int,
                                        month: int, url: string, now: real, later: real, today: (int, int))
    requires MarkProcessed(archives, username, year, month, url, now).Ok?
    requires MarkProcessed(archives, username, year, month, url, now).value != archives
    requires (year, month) != today && now <= later < now + OneHour
    ensures !ShouldProcessArchive(username, year, month, today,
                                  MarkProcessed(archives, username, year, month, url, now).value, later)
  {
    var marked := MarkProcessed(archives, username, year, month, url, now).value;
    var k: nat;
    if exists i :: 0 <= i < |archives| && IsMonthOf(archives[i], username, year, month) {
      k :| k < |archives| && IsMonthOf(archives[k], username, year, month);
    } else {
      k := |archives|;
    }
    assert ProcessedMonth(marked[k], username, year, month);
    var f := FirstProcessed(marked, username, year, month);
    assert marked[f.value].processedAt == Some(now);
  }

  /** The uuids in `games` that are not stored yet. */
  function NewUuids(games: seq<GameRecord>, stored: set<string>): (s: set<string>)
  {
    set g | g in games && g.gameUuid !in stored :: g.gameUuid
  }

  /**
    Game `k` is new: neither its uuid nor its URL is stored, and no earlier
    game of the month shares either of them.
  */
  predicate FreshAt(games: seq<GameRecord>, k: int, storedUuids: set<string>, storedUrls: set<string>)
    requires 0 <= k < |games|
  {
    && games[k].gameUuid !in storedUuids
    && games[k].url !in storedUrls
    && forall j :: 0 <= j < k ==> games[j].gameUuid != games[k].gameUuid && games[j].url != games[k].url
  }

  /** Every URL added since `storedUrls` belongs to one of the first `n` games, whose uuid was added with it. */
  predicate UrlsFromSavedGames(games: seq<GameRecord>, n: int, storedUuids: set<string>, storedUrls: set<string>,
                               uuids: set<string>, urls: set<string>)
    requires 0 <= n <= |games|
  {
    forall v :: v in urls - storedUrls ==>
      exists k :: 0 <= k < n && games[k].url == v && games[k].gameUuid in uuids - storedUuids
  }

  /** Every uuid added since `storedUuids` is the uuid of one of the first `n` games. */
  predicate UuidsFromFirst(games: seq<GameRecord>, n: int, storedUuids: set<string>, uuids: set<string>)
    requires 0 <= n <= |games|
  {
    forall u :: u in uuids - storedUuids ==> exists k :: 0 <= k < n && games[k].gameUuid == u
  }

  /** What saving the first `i` games guarantees; the loop invariant of `SaveNewGames`. */
  predicate SavedUpTo(games: seq<GameRecord>, i: int, storedUuids: set<string>, storedUrls: set<string>,
                      added: nat, uuids: set<string>, urls: set<string>)
    requires 0 <= i <= |games|
  {
    && storedUuids <= uuids && storedUrls <= urls
    && UuidsFromFirst(games, i, storedUuids, uuids)
    && added == |uuids - storedUuids| && added == |urls - storedUrls|
    && UrlsFromSavedGames(games, i, storedUuids, storedUrls, uuids, urls)
    && (forall k :: 0 <= k < i ==> Settled(games[k], uuids, urls))
    && (forall k :: 0 <= k < i && FreshAt(games, k, storedUuids, storedUrls) ==> games[k].gameUuid in uuids)
  }

  /**
    Saves a month's games in order: a game whose uuid is stored already is
    skipped, one whose URL is stored already fails to save, any other is stored
    and counted.
  */
  method SaveNewGames(games: seq<GameRecord>, storedUuids: set<string>, storedUrls: set<string>)
    returns (added: nat, uuids: set<string>, urls: set<string>)
    ensures storedUuids <= uuids && storedUrls <= urls
    ensures uuids - storedUuids <= NewUuids(games, storedUuids)
    ensures added == |uuids - storedUuids| && added == |urls - storedUrls|
    ensures added <= |NewUuids(games, storedUuids)|
    ensures UrlsFromSavedGames(games, |games|, storedUuids, storedUrls, uuids, urls)
    ensures forall k :: 0 <= k < |games| ==> Settled(games[k], uuids, urls)
    ensures forall k :: 0 <= k < |games| && FreshAt(games, k, storedUuids, storedUrls) ==> games[k].gameUuid in uuids
    ensures |games| > 0 && games[0].gameUuid !in storedUuids && games[0].url !in storedUrls ==> added > 0
  {
    added, uuids, urls := 0, storedUuids, storedUrls;
    var i := 0;
    while i < |games|
      invariant 0 <= i <= |games|
      invariant SavedUpTo(games, i, storedUuids, storedUrls, added, uuids, urls)
    {
      var g := games[i];
      if g.gameUuid !in uuids && g.url !in urls {
        SaveStored(games, i, storedUuids, storedUrls, added, uuids, urls);
        uuids, urls, added := uuids + {g.gameUuid}, urls + {g.url}, added + 1;
      } else {
        SaveSkipped(games, i, storedUuids, storedUrls, added, uuids, urls);
      }
      i := i + 1;
    }
    SubsetCardinality(uuids - storedUuids, NewUuids(games, storedUuids));
    if |games| > 0 && games[0].gameUuid !in storedUuids && games[0].url !in storedUrls {
      assert FreshAt(games, 0, storedUuids, storedUrls);
      assert games[0].gameUuid in uuids - storedUuids;
    }
  }

  /** Storing game `i`, whose uuid and URL are both new, keeps the invariant. */
  lemma SaveStored(games: seq<GameRecord>, i: int, storedUuids: set<string>, storedUrls: set<string>,
                   added: nat, uuids: set<string>, urls: set<string>)
    requires 0 <= i < |games|
    requires SavedUpTo(games, i, storedUuids, storedUrls, added, uuids, urls)
    requires games[i].gameUuid !in uuids && games[i].url !in urls
    ensures SavedUpTo(games, i + 1, storedUuids, storedUrls, added + 1,
                      uuids + {games[i].gameUuid}, urls + {games[i].url})
  {
    var g := games[i];
    AddOneNew(uuids, storedUuids, g.gameUuid);
    AddOneNew(urls, storedUrls, g.url);
    UuidStep(games, i, storedUuids, uuids);
    PairStep(games, i, storedUuids, storedUrls, uuids, urls);
    SettledGrows(games, i, uuids, urls, uuids + {g.gameUuid}, urls + {g.url});
    FreshStoredGrows(games, i, storedUuids, storedUrls, uuids, uuids + {g.gameUuid});
  }

  /** Growing the stores keeps the first `i` games settled, and settles game `i` once its uuid is in. */
  lemma SettledGrows(games: seq<GameRecord>, i: int, uuids: set<string>, urls: set<string>,
                     uuids': set<string>, urls': set<string>)
    requires 0 <= i < |games|
    requires uuids <= uuids' && urls <= urls' && games[i].gameUuid in uuids'
    requires forall k :: 0 <= k < i ==> Settled(games[k], uuids, urls)
    ensures forall k :: 0 <= k < i + 1 ==> Settled(games[k], uuids', urls')
  {
  }

  /** Growing the uuid store keeps every fresh game among the first `i` stored, and adds game `i`. */
  lemma FreshStoredGrows(games: seq<GameRecord>, i: int, storedUuids: set<string>, storedUrls: set<string>,
                         uuids: set<string>, uuids': set<string>)
    requires 0 <= i < |games|
    requires uuids <= uuids' && games[i].gameUuid in uuids'
    requires forall k :: 0 <= k < i && FreshAt(games, k, storedUuids, storedUrls) ==> games[k].gameUuid in uuids
    ensures forall k :: 0 <= k < i + 1 && FreshAt(games, k, storedUuids, storedUrls) ==> games[k].gameUuid in uuids'
  {
  }

  /** Storing the uuid of game `i` keeps every added uuid one of the first games'. */
  lemma UuidStep(games: seq<GameRecord>, i: int, storedUuids: set<string>, uuids: set<string>)
    requires 0 <= i < |games|
    requires UuidsFromFirst(games, i, storedUuids, uuids)
    ensures UuidsFromFirst(games, i + 1, storedUuids, uuids + {games[i].gameUuid})
  {
    forall u | u in (uuids + {games[i].gameUuid}) - storedUuids
      ensures exists k :: 0 <= k < i + 1 && games[k].gameUuid == u
    {
      if u != games[i].gameUuid {
        assert u in uuids - storedUuids;
      }
    }
  }

  /** Skipping game `i`, whose uuid is stored or whose URL is taken, keeps the invariant. */
  lemma SaveSkipped(games: seq<GameRecord>, i: int, storedUuids: set<string>, storedUrls: set<string>,
                    added: nat, uuids: set<string>, urls: set<string>)
    requires 0 <= i < |games|
    requires SavedUpTo(games, i, storedUuids, storedUrls, added, uuids, urls)
    requires games[i].gameUuid in uuids || games[i].url in urls
    ensures SavedUpTo(games, i + 1, storedUuids, storedUrls, added, uuids, urls)
  {
    FreshSkipped(games, i, storedUuids, storedUrls, uuids, urls);
    assert UrlsFromSavedGames(games, i + 1, storedUuids, storedUrls, uuids, urls) by {
      forall v | v in urls - storedUrls
        ensures exists k :: 0 <= k < i + 1 && games[k].url == v && games[k].gameUuid in uuids - storedUuids
      {
        var k :| 0 <= k < i && games[k].url == v && games[k].gameUuid in uuids - storedUuids;
      }
    }
  }

  /** Storing game `i` with both keys new keeps every added URL tied to a stored game. */
  lemma PairStep(games: seq<GameRecord>, i: int, storedUuids: set<string>, storedUrls: set<string>,
                 uuids: set<string>, urls: set<string>)
    requires 0 <= i < |games|
    requires storedUuids <= uuids && storedUrls <= urls
    requires games[i].gameUuid !in uuids && games[i].url !in urls
    requires UrlsFromSavedGames(games, i, storedUuids, storedUrls, uuids, urls)
    ensures UrlsFromSavedGames(games, i + 1, storedUuids, storedUrls, uuids + {games[i].gameUuid}, urls + {games[i].url})
  {
    var u', v' := uuids + {games[i].gameUuid}, urls + {games[i].url};
    forall v | v in v' - storedUrls
      ensures exists k :: 0 <= k < i + 1 && games[k].url == v && games[k].gameUuid in u' - storedUuids
    {
      if v != games[i].url {
        assert v in urls - storedUrls;
        var k :| 0 <= k < i && games[k].url == v && games[k].gameUuid in uuids - storedUuids;
        assert games[k].gameUuid in u' - storedUuids;
      }
    }
  }

  /** A game that is skipped or fails to save was not fresh: one of its keys was stored or taken earlier. */
  lemma FreshSkipped(games: seq<GameRecord>, i: int, storedUuids: set<string>, storedUrls: set<string>,
                     uuids: set<string>, urls: set<string>)
    requires 0 <= i < |games|
    requires games[i].gameUuid in uuids || games[i].url in urls
    requires UuidsFromFirst(games, i, storedUuids, uuids)
    requires UrlsFromSavedGames(games, i, storedUuids, storedUrls, uuids, urls)
    ensures !FreshAt(games, i, storedUuids, storedUrls)
  {
    if games[i].gameUuid in uuids - storedUuids {
      var k :| 0 <= k < i && games[k].gameUuid == games[i].gameUuid;
    } else if games[i].gameUuid !in uuids && games[i].url in urls - storedUrls {
      var k :| 0 <= k < i && games[k].url == games[i].url && games[k].gameUuid in uuids - storedUuids;
    }
  }

  /** A game is settled once its uuid is stored or its URL is taken. */
  predicate Settled(g: GameRecord, uuids: set<string>, urls: set<string>) {
    g.gameUuid in uuids || g.url in urls
  }

  /** Storing one more uuid adds exactly one new one. */
  lemma AddOneNew(uuids: set<string>, stored: set<string>, u: string)
    requires stored <= uuids && u !in uuids
    ensures (uuids + {u}) - stored == (uuids - stored) + {u}
    ensures |(uuids + {u}) - stored| == |uuids - stored| + 1
  {
    assert (uuids + {u}) - stored == (uuids - stored) + {u};
  }

  lemma SubsetCardinality<T>(a: set<T>, b: set<T>)
    requires a <= b
    ensures |a| <= |b|
  {
    assert b == a + (b - a);
  }

  /** The records kept from a month's games, in order. */
  function ProcessGames(games: seq<GameData>, username: string): (records: seq<GameRecord>)
    ensures |records| == |games|
    ensures forall k :: 0 <= k < |games| ==> records[k] == ProcessGame(games[k], username)
  {
    seq(|games|, k requires 0 <= k < |games| => ProcessGame(games[k], username))
  }

  /** What the monthly update of one player and month reports. */
  datatype MonthOutcome = Skipped | Failed | NoGames | Success(newGames: nat)

  /** The archive download: failed (network error or a status other than 200), or its games. */
  datatype Fetch = FetchFailed | Fetched(games: seq<GameData>)

  /**
    The monthly update of one player: skip a recently processed archive, fetch
    it, save the new games, then mark the month processed.
  */
  method ProcessMonth(username: string, year: int, month: int, today: (int, int), now: real,
                      fetch: Fetch, store: Store)
    returns (outcome: MonthOutcome, after: Store)
    ensures (year, month) == today ==> !outcome.Skipped?
    ensures outcome.Skipped? <==> !ShouldProcessArchive(username, year, month, today, store.archives, now)
    ensures outcome.Skipped? || outcome.NoGames? || fetch.FetchFailed? ==> after == store
    ensures fetch.FetchFailed? ==> outcome.Skipped? || outcome.Failed?
    ensures outcome.NoGames? <==> !outcome.Skipped? && fetch == Fetched([])
    ensures outcome.Success? ==> outcome.newGames == |after.uuids - store.uuids|
    ensures outcome.Success? ==>
      outcome.newGames <= |NewUuids(ProcessGames(fetch.games, username), store.uuids)|
    ensures store.uuids <= after.uuids && store.urls <= after.urls
    ensures outcome.Success? ==> fetch.Fetched? && |fetch.games| > 0
    ensures fetch.Fetched? ==> after.uuids - store.uuids <= NewUuids(ProcessGames(fetch.games, username), store.uuids)
    ensures fetch.Fetched? ==>
      UrlsFromSavedGames(ProcessGames(fetch.games, username), |fetch.games|, store.uuids, store.urls, after.uuids, after.urls)
    ensures fetch.Fetched? && !outcome.Skipped? ==>
      forall k :: 0 <= k < |fetch.games| ==> Settled(ProcessGame(fetch.games[k], username), after.uuids, after.urls)
    ensures fetch.Fetched? && !outcome.Skipped? ==>
      forall k :: 0 <= k < |fetch.games| && FreshAt(ProcessGames(fetch.games, username), k, store.uuids, store.urls) ==>
        ProcessGame(fetch.games[k], username).gameUuid in after.uuids
    ensures outcome.Success? && FreshAt(ProcessGames(fetch.games, username), 0, store.uuids, store.urls) ==>
      outcome.newGames > 0
    ensures outcome.Success? && (year, month) != today && after.archives != store.archives ==>
      forall later :: now <= later < now + OneHour ==>
        !ShouldProcessArchive(username, year, month, today, after.archives, later)
    ensures fetch.Fetched? && |fetch.games| > 0 && !outcome.Skipped? ==>
      var marked := MarkProcessed(store.archives, username, year, month, ArchiveUrl(username, year, month), now);
      (outcome.Failed? <==> marked.Err?)
      && (outcome.Success? ==> after.archives == marked.value)
      && (outcome.Failed? ==> after.archives == store.archives)
  {
    if !ShouldProcessArchive(username, year, month, today, store.archives, now) {
      return Skipped, store;
    }
    if fetch.FetchFailed? {
      return Failed, store;
    }
    if |fetch.games| == 0 {
      return NoGames, store;
    }
    outcome, after := SaveMonth(username, year, month, today, now, fetch.games, store);
  }

  /** Saves a fetched, non-empty month of games, then marks the month processed. */
  method SaveMonth(username: string, year: int, month: int, today: (int, int), now: real,
                   games: seq<GameData>, store: Store)
    returns (outcome: MonthOutcome, after: Store)
    requires |games| > 0
    ensures outcome.Success? || outcome.Failed?
    ensures outcome.Success? ==> outcome.newGames == |after.uuids - store.uuids|
    ensures outcome.Success? ==> outcome.newGames <= |NewUuids(ProcessGames(games, username), store.uuids)|
    ensures store.uuids <= after.uuids && store.urls <= after.urls
    ensures after.uuids - store.uuids <= NewUuids(ProcessGames(games, username), store.uuids)
    ensures UrlsFromSavedGames(ProcessGames(games, username), |games|, store.uuids, store.urls, after.uuids, after.urls)
    ensures forall k :: 0 <= k < |games| ==> Settled(ProcessGame(games[k], username), after.uuids, after.urls)
    ensures forall k :: 0 <= k < |games| && FreshAt(ProcessGames(games, username), k, store.uuids, store.urls) ==>
      ProcessGame(games[k], username).gameUuid in after.uuids
    ensures outcome.Success? && FreshAt(ProcessGames(games, username), 0, store.uuids, store.urls) ==>
      outcome.newGames > 0
    ensures outcome.Success? && (year, month) != today && after.archives != store.archives ==>
      forall later :: now <= later < now + OneHour ==>
        !ShouldProcessArchive(username, year, month, today, after.archives, later)
    ensures var marked := MarkProcessed(store.archives, username, year, month, ArchiveUrl(username, year, month), now);
      (outcome.Failed? <==> marked.Err?)
      && (outcome.Success? ==> after.archives == marked.value)
      && (outcome.Failed? ==> after.archives == store.archives)
  {
    var records := ProcessGames(games, username);
    var added, uuids, urls := SaveNewGames(records, store.uuids, store.urls);
    var url := ArchiveUrl(username, year, month);
    var marked := MarkProcessed(store.archives, username, year, month, url, now);
    if marked.Err? {
      return Failed, Store(uuids, urls, store.archives);
    }
    outcome, after := Success(added), Store(uuids, urls, marked.value);
    forall later | now <= later < now + OneHour && (year, month) != today && after.archives != store.archives
      ensures !ShouldProcessArchive(username, year, month, today, after.archives, later)
    {
      MarkedMonthSkippedWithinTheHour(store.archives, username, year, month, url, now, later, today);
    }
  }
}

=== FILE: numerics.dfy ===
/**
  Real-number primitives the scheduler relies on.

  `math.exp`, `math.log` and `math.sqrt` have no definition in Dafny, so they
  are carried around as an `Analysis` record of functions together with the
  ghost predicate `Lawful`, which lists the only facts the model assumes about
  them. Every member that evaluates one of them takes the record as a
  parameter and requires `Lawful`.
*/
module Numerics {

  /** Stand-ins for `math.exp`, `math.log` (natural logarithm) and `math.sqrt`. */
  datatype Analysis = Analysis(exp: real -> real, ln: real -> real, sqrt: real -> real)

  /** The properties of exp, ln and sqrt that the proofs use. */
  ghost predicate Lawful(a: Analysis) {
    && a.exp(0.0) == 1.0
    && (forall x :: x <= 0.0 ==> 0.0 < a.exp(x) <= 1.0)
    && (forall x, y :: x <= y ==> a.exp(x) <= a.exp(y))
    && (forall r :: 0.0 < r ==> a.exp(a.ln(r)) == r)
    && a.sqrt(0.0) == 0.0
    && (forall x :: 0.0 < x ==> 0.0 < a.sqrt(x))
  }

  /** The natural logarithm of a retention target strictly between 0 and 1 is negative. */
  lemma LnOfFractionNegative(a: Analysis, r: real)
    requires Lawful(a)
    requires 0.0 < r < 1.0
    ensures a.ln(r) < 0.0
  {
    assert a.exp(a.ln(r)) == r;
  }

  function Min(x: real, y: real): real { if x <= y then x else y }

  function Max(x: real, y: real): real { if x >= y then x else y }

  function MinInt(x: int, y: int): int { if x <= y then x else y }

  function MaxInt(x: int, y: int): int { if x >= y then x else y }

  /**
    Python's `a // b` on integers: the floor of the exact quotient. Dafny's `/`
    is Euclidean, which agrees with floor division only for a positive divisor.
    A zero divisor raises ZeroDivisionError in Python and is excluded here.
  */
  function FloorDiv(a: int, b: int): int
    requires b != 0
  {
    if b > 0 then a / b else (-a) / (-b)
  }

  /** Python's `a % b` on integers, whose sign follows the divisor. */
  function FloorMod(a: int, b: int): int
    requires b != 0
  {
    if b > 0 then a % b else -((-a) % (-b))
  }

  /** Floor division and its remainder rebuild the dividend, the remainder taking the divisor's sign. */
  lemma FloorDivMod(a: int, b: int)
    requires b != 0
    ensures a == FloorDiv(a, b) * b + FloorMod(a, b)
    ensures b > 0 ==> 0 <= FloorMod(a, b) < b
    ensures b < 0 ==> b < FloorMod(a, b) <= 0
  {
    if b < 0 {
      assert -a == ((-a) / (-b)) * (-b) + (-a) % (-b);
    }
  }

  /** A positive multiple of a non-negative number is at least that number. */
  lemma {:induction false} MulAtLeast(k: int, d: int)
    requires k >= 1 && d >= 0
    ensures k * d >= d
    decreases k
  {
    if k > 1 {
      MulAtLeast(k - 1, d);
      assert k * d == (k - 1) * d + d;
    }
  }

  /** Multiplying by a non-negative number keeps the order. */
  lemma MulMonotone(a: int, b: int, d: int)
    requires a <= b && d >= 0
    ensures a * d <= b * d
  {
    if a < b {
      MulAtLeast(b - a, d);
      assert (b - a) * d == b * d - a * d;
    }
  }

  /** The quotient and remainder of a Euclidean division are unique. */
  lemma DivModUnique(x: int, d: int, q: int, r: int)
    requires d > 0 && 0 <= r < d && x == q * d + r
    ensures x / d == q && x % d == r
  {
    var q', r' := x / d, x % d;
    assert x == q' * d + r' && 0 <= r' < d;
    if q' > q {
      var k := q' - q;
      assert k * d == q' * d - q * d;
      MulAtLeast(k, d);
    } else if q' < q {
      var k := q - q';
      assert k * d == q * d - q' * d;
      MulAtLeast(k, d);
    }
  }

  /** Euclidean division by a positive number is monotone in the dividend. */
  lemma DivMonotone(x: int, y: int, d: int)
    requires d > 0 && x <= y
    ensures x / d <= y / d
  {
    var qx, qy := x / d, y / d;
    assert x == qx * d + x % d && y == qy * d + y % d;
    if qx > qy {
      var k := qx - qy;
      assert k * d == qx * d - qy * d;
      MulAtLeast(k, d);
    }
  }
}

=== FILE: pystrings.dfy ===
/**
  The few Python string operations the ingestion code uses: `split`, `strip`,
  `replace` of one character, ASCII `lower`, `int()` of a decimal literal,
  `str()` of an integer and the `:02d` format.
*/
module PyStrings {
  import opened Wrappers

  /** `s.split(sep)`: the pieces between separators, empty pieces included. */
  function Split(s: string, sep: char): (parts: seq<string>)
    ensures |parts| >= 1
    ensures forall i :: 0 <= i < |parts| ==> sep !in parts[i]
    decreases |s|
  {
    if |s| == 0 then [""]
    else
      var init := Split(s[..|s| - 1], sep);
      var c := s[|s| - 1];
      if c == sep then init + [""]
      else init[..|init| - 1] + [init[|init| - 1] + [c]]
  }

  /** A text without separators splits into itself. */
  lemma {:induction false} SplitWithoutSeparator(b: string, sep: char)
    requires sep !in b
    ensures Split(b, sep) == [b]
    decreases |b|
  {
    if |b| > 0 {
      SplitWithoutSeparator(b[..|b| - 1], sep);
      assert b[..|b| - 1] + [b[|b| - 1]] == b;
    }
  }

  /** Appending a separator and a separator-free piece appends that piece to the split. */
  lemma {:induction false} SplitAppend(a: string, sep: char, b: string)
    requires sep !in b
    ensures Split(a + [sep] + b, sep) == Split(a, sep) + [b]
    decreases |b|
  {
    var s := a + [sep] + b;
    if |b| == 0 {
      assert s[..|s| - 1] == a;
    } else {
      var b' := b[..|b| - 1];
      assert s[..|s| - 1] == a + [sep] + b';
      SplitAppend(a, sep, b');
      assert b' + [b[|b| - 1]] == b;
    }
  }

  /** The last two pieces of `h/x/y` are `x` and `y` when neither holds a separator. */
  lemma SplitLastTwo(h: string, sep: char, x: string, y: string)
    requires sep !in x && sep !in y
    ensures var parts := Split(h + [sep] + x + [sep] + y, sep);
      |parts| >= 2 && parts[|parts| - 2] == x && parts[|parts| - 1] == y
  {
    SplitAppend(h + [sep] + x, sep, y);
    SplitAppend(h, sep, x);
  }

  /** The last piece of `s.split(sep)`, Python's `s.split(sep)[-1]`. */
  function LastPiece(s: string, sep: char): (p: string)
    ensures sep !in p
    ensures sep !in s ==> p == s
  {
    var parts := Split(s, sep);
    assert sep !in s ==> parts == [s] by {
      if sep !in s { SplitWithoutSeparator(s, sep); }
    }
    parts[|parts| - 1]
  }

  /** `s.lstrip(c)`: the longest suffix of `s` after a run of `c`. */
  function StripLeading(s: string, c: char): (r: string)
    ensures |r| == 0 || r[0] != c
    ensures |r| <= |s| && r == s[|s| - |r|..]
    ensures forall j :: 0 <= j < |s| - |r| ==> s[j] == c
    decreases |s|
  {
    if |s| > 0 && s[0] == c then StripLeading(s[1..], c) else s
  }

  /** `s.rstrip(c)`: the longest prefix of `s` before a run of `c`. */
  function StripTrailing(s: string, c: char): (r: string)
    ensures |r| == 0 || r[|r| - 1] != c
    ensures |r| <= |s| && r == s[..|r|]
    ensures forall j :: |r| <= j < |s| ==> s[j] == c
    decreases |s|
  {
    if |s| > 0 && s[|s| - 1] == c then StripTrailing(s[..|s| - 1], c) else s
  }

  /** `s.strip(c)`: both ends freed of `c`. */
  function Strip(s: string, c: char): (r: string)
    ensures |r| == 0 || (r[0] != c && r[|r| - 1] != c)
    ensures |s| > 0 && s[0] != c && s[|s| - 1] != c ==> r == s
  {
    StripTrailing(StripLeading(s, c), c)
  }

  lemma StripUnchanged(s: string, c: char)
    requires |s| > 0 && s[0] != c && s[|s| - 1] != c
    ensures Strip(s, c) == s
  {
  }

  /** `s.replace(from, to)` for single characters. */
  function ReplaceChar(s: string, from: char, to: char): (r: string)
    ensures |r| == |s|
    ensures from != to ==> from !in r
    ensures forall i :: 0 <= i < |s| ==> r[i] == if s[i] == from then to else s[i]
  {
    seq(|s|, i requires 0 <= i < |s| => if s[i] == from then to else s[i])
  }

  /** `s.lower()` on ASCII letters; other characters are left alone. */
  function Lower(s: string): (r: string)
    ensures |r| == |s|
    ensures forall i :: 0 <= i < |s| ==> !('A' <= r[i] <= 'Z')
    ensures forall i :: 0 <= i < |s| && !('A' <= s[i] <= 'Z') ==> r[i] == s[i]
    ensures forall i :: 0 <= i < |s| && 'A' <= s[i] <= 'Z' ==>
      'a' <= r[i] <= 'z' && r[i] as int - 'a' as int == s[i] as int - 'A' as int
  {
    seq(|s|, i requires 0 <= i < |s| => if 'A' <= s[i] <= 'Z' then (s[i] as int + 32) as char else s[i])
  }

  /** Lowering twice is lowering once. */
  lemma LowerIdempotent(s: string)
    ensures Lower(Lower(s)) == Lower(s)
  {
  }

  predicate IsDigit(c: char) {
    '0' <= c <= '9'
  }

  predicate AllDigits(s: string) {
    forall i :: 0 <= i < |s| ==> IsDigit(s[i])
  }

  /** The value of a string of decimal digits, most significant first. */
  function DigitsValue(s: string): nat
    requires AllDigits(s)
    decreases |s|
  {
    if |s| == 0 then 0
    else DigitsValue(s[..|s| - 1]) * 10 + (s[|s| - 1] as int - '0' as int)
  }

  /** An optional sign followed by at least one ASCII digit. */
  predicate IsIntLiteral(s: string) {
    || (|s| > 0 && AllDigits(s))
    || (|s| > 1 && (s[0] == '+' || s[0] == '-') && AllDigits(s[1..]))
  }

  /**
    `int(s)` for a decimal literal: an optional sign followed by at least one
    digit. Anything else raises ValueError in Python, here `None`.
  */
  function ParseInt(s: string): (r: Option<int>)
    ensures r.Some? <==> IsIntLiteral(s)
    ensures |s| > 0 && AllDigits(s) ==> r == Some(DigitsValue(s))
    ensures |s| > 1 && s[0] == '+' && AllDigits(s[1..]) ==> r == Some(DigitsValue(s[1..]))
    ensures |s| > 1 && s[0] == '-' && AllDigits(s[1..]) ==> r == Some(-(DigitsValue(s[1..]) as int))
  {
    if |s| > 0 && (s[0] == '+' || s[0] == '-') then
      var body := s[1..];
      if |body| > 0 && AllDigits(body) then
        var v: int := DigitsValue(body);
        Some(if s[0] == '-' then -v else v)
      else None
    else if |s| > 0 && AllDigits(s) then Some(DigitsValue(s))
    else None
  }

  /** The decimal digits of `n` without leading zeros. */
  function NatToDigits(n: nat): (s: string)
    ensures |s| > 0 && AllDigits(s)
    decreases n
  {
    var d := ['0' + (n % 10) as char];
    if n < 10 then d else NatToDigits(n / 10) + d
  }

  /** `str(i)`. */
  function IntToStr(i: int): (s: string)
    ensures |s| > 0
    ensures '/' !in s
  {
    if i < 0 then "-" + NatToDigits(-i) else NatToDigits(i)
  }

  /** `f"{m:02d}"`: at least two characters, zero-padded for 0..9. */
  function Pad2(m: int): (s: string)
    ensures '/' !in s
    ensures 0 <= m <= 99 ==> |s| == 2 && AllDigits(s)
  {
    if 0 <= m < 10 then "0" + IntToStr(m)
    else
      assert 10 <= m <= 99 ==> |NatToDigits(m)| == 2 by {
        if 10 <= m <= 99 { assert m / 10 < 10; }
      }
      IntToStr(m)
  }

  lemma {:induction false} DigitsRoundTrip(n: nat)
    ensures DigitsValue(NatToDigits(n)) == n
    decreases n
  {
    var s := NatToDigits(n);
    if n >= 10 {
      DigitsRoundTrip(n / 10);
      assert s[..|s| - 1] == NatToDigits(n / 10);
    }
  }

  /** A leading zero does not change the value of a digit string. */
  lemma {:induction false} LeadingZero(s: string)
    requires AllDigits(s)
    ensures AllDigits("0" + s) && DigitsValue("0" + s) == DigitsValue(s)
    decreases |s|
  {
    if |s| > 0 {
      LeadingZero(s[..|s| - 1]);
      assert ("0" + s)[..|s|] == "0" + s[..|s| - 1];
    }
  }

  /** `int(str(i)) == i`. */
  lemma IntRoundTrip(i: int)
    ensures ParseInt(IntToStr(i)) == Some(i)
  {
    if i < 0 {
      DigitsRoundTrip(-i);
      assert IntToStr(i)[1..] == NatToDigits(-i);
    } else {
      DigitsRoundTrip(i);
    }
  }

  /** `int(f"{m:02d}") == m`. */
  lemma Pad2RoundTrip(m: int)
    ensures ParseInt(Pad2(m)) == Some(m)
  {
    IntRoundTrip(m);
    if 0 <= m < 10 {
      DigitsRoundTrip(m);
      LeadingZero(NatToDigits(m));
    }
  }
}

=== FILE: review.dfy ===
/**
  Review selection and the daily quota: the due-puzzle list ranked by urgency
  (`FSRSDuePuzzlesView.get`), the daily mix of reviews and new puzzles
  (`DailyPuzzlesView.get`), the `UserDailyProgress` counters, and the
  bookkeeping of one attempt submission (`FSRSPuzzleAttemptView.post`).
*/
module Review {
  import opened Wrappers
  import opened Numerics
  import opened Sorting
  import opened Fsrs
  import opened Attempts
  import FsrsProperties

  // ---------------------------------------------------------------------------
  // Due puzzles
  // ---------------------------------------------------------------------------

  /** A record is due once its scheduled next review is at or before `now`. */
  predicate IsDue(m: Memory, now: Instant) {
    m.nextReview.Some? && m.nextReview.value <= now
  }

  /** The due records of `ms`, in store order. */
  function DueMemories(ms: seq<Memory>, now: Instant): (due: seq<Memory>)
    ensures forall m :: multiset(due)[m] == if IsDue(m, now) then multiset(ms)[m] else 0
    ensures forall m :: m in due <==> m in ms && IsDue(m, now)
  {
    if |ms| == 0 then []
    else
      assert ms == [ms[0]] + ms[1..];
      var rest := DueMemories(ms[1..], now);
      if IsDue(ms[0], now) then [ms[0]] + rest else rest
  }

  /** One line of the due list: a record and its retrievability at query time. */
  datatype DueEntry = DueEntry(memory: Memory, retrievability: real)

  /** The urgency ranking: lower retrievability first. */
  function ByRetrievability(): (le: (DueEntry, DueEntry) -> bool)
    ensures TotalPreorder(le)
    ensures forall x, y :: le(x, y) <==> x.retrievability <= y.retrievability
  {
    (x: DueEntry, y: DueEntry) => x.retrievability <= y.retrievability
  }

  /** A record that makes the due list fail: it has been reviewed but its stability is 0. */
  predicate Degenerate(m: Memory) {
    m.lastReview.Some? && m.stability == 0.0
  }

  /** The due entries of `due` in the same order; fails on the first degenerate record. */
  function Annotate(a: Analysis, due: seq<Memory>, now: Instant): (r: Result<seq<DueEntry>, MathError>)
    requires Lawful(a)
    ensures r.Err? <==> exists i :: 0 <= i < |due| && Degenerate(due[i])
    ensures r.Ok? ==> |r.value| == |due|
    ensures r.Ok? ==> forall i :: 0 <= i < |due| ==>
      r.value[i] == DueEntry(due[i], Retrievability(a, due[i], now).value)
  {
    if |due| == 0 then Ok([])
    else
      match Retrievability(a, due[0], now)
      case Err(e) => Err(e)
      case Ok(r0) =>
        match Annotate(a, due[1..], now)
        case Err(e) =>
          assert exists i :: 0 <= i < |due[1..]| && Degenerate(due[1..][i]);
          Err(e)
        case Ok(rest) =>
          assert !Degenerate(due[0]);
          assert forall i :: 1 <= i < |due| ==> due[i] == due[1..][i - 1];
          Ok([DueEntry(due[0], r0)] + rest)
  }

  /**
    The due list: every record whose next review is at or before `now`,
    paired with its retrievability and ranked least retrievable first.
    Computing retrievability divides by stability, so a due record that was
    reviewed and has stability 0 makes the whole query fail.
  */
  function DuePuzzles(a: Analysis, ms: seq<Memory>, now: Instant): (r: Result<seq<DueEntry>, MathError>)
    requires Lawful(a)
    ensures r.Err? <==> exists m :: m in ms && IsDue(m, now) && Degenerate(m)
    ensures r.Ok? ==> |r.value| == |DueMemories(ms, now)|
    ensures r.Ok? ==> forall e :: e in r.value ==>
      e.memory in ms && IsDue(e.memory, now) && Ok(e.retrievability) == Retrievability(a, e.memory, now)
    ensures r.Ok? ==> forall m :: m in ms && IsDue(m, now) ==> exists e :: e in r.value && e.memory == m
    ensures r.Ok? ==> forall i, j :: 0 <= i < |r.value| && 0 <= j < |r.value| ==>
      (r.value[i].retrievability < r.value[j].retrievability ==> i < j)
  {
    var due := DueMemories(ms, now);
    DegenerateDue(ms, due, now);
    match Annotate(a, due, now)
    case Err(e) => Err(e)
    case Ok(entries) =>
      var sorted := Sort(entries, ByRetrievability());
      SameElements(sorted, entries);
      EntriesCoverDue(a, due, entries, now);
      RankedByRetrievability(sorted);
      Ok(sorted)
  }

  /** The due list fails exactly when some due record of the store is degenerate. */
  lemma DegenerateDue(ms: seq<Memory>, due: seq<Memory>, now: Instant)
    requires due == DueMemories(ms, now)
    ensures (exists i :: 0 <= i < |due| && Degenerate(due[i])) <==> exists m :: m in ms && IsDue(m, now) && Degenerate(m)
  {
    if exists m :: m in ms && IsDue(m, now) && Degenerate(m) {
      var m :| m in ms && IsDue(m, now) && Degenerate(m);
      assert m in due;
      var i :| 0 <= i < |due| && due[i] == m;
    }
    if exists i :: 0 <= i < |due| && Degenerate(due[i]) {
      var i :| 0 <= i < |due| && Degenerate(due[i]);
      assert due[i] in due;
    }
  }

  /** Two sequences with the same multiset have the same elements. */
  lemma SameElements<T>(s: seq<T>, t: seq<T>)
    requires multiset(s) == multiset(t)
    ensures forall e :: e in s <==> e in t
  {
    forall e ensures e in s <==> e in t {
      assert e in s <==> multiset(s)[e] > 0;
      assert e in t <==> multiset(t)[e] > 0;
    }
  }

  /** The annotated entries pair each due record with its retrievability, and miss none. */
  lemma EntriesCoverDue(a: Analysis, due: seq<Memory>, entries: seq<DueEntry>, now: Instant)
    requires Lawful(a)
    requires Annotate(a, due, now) == Ok(entries)
    ensures forall e :: e in entries ==> e.memory in due && Ok(e.retrievability) == Retrievability(a, e.memory, now)
    ensures forall m :: m in due ==> exists e :: e in entries && e.memory == m
  {
    forall e | e in entries ensures e.memory in due && Ok(e.retrievability) == Retrievability(a, e.memory, now) {
      var i :| 0 <= i < |entries| && entries[i] == e;
      assert due[i] in due;
    }
    forall m | m in due ensures exists e :: e in entries && e.memory == m {
      var i :| 0 <= i < |due| && due[i] == m;
      assert entries[i] in entries;
    }
  }

  /** In a list sorted by retrievability, a strictly less retrievable entry comes strictly earlier. */
  lemma RankedByRetrievability(s: seq<DueEntry>)
    requires SortedBy(s, ByRetrievability())
    ensures forall i, j :: 0 <= i < |s| && 0 <= j < |s| ==>
      (s[i].retrievability < s[j].retrievability ==> i < j)
  {
  }

  // ---------------------------------------------------------------------------
  // Daily progress and limits
  // ---------------------------------------------------------------------------

  const DefaultNewLimit: int := 25
  const DefaultTotalLimit: int := 50
  const DefaultPerPage: int := 10

  /** A player's `UserDailyProgress` row for one day. */
  datatype DailyProgress = DailyProgress(newPuzzlesSeen: int, reviewsDone: int)

  /** `total_puzzles_done`: new puzzles and reviews together. */
  function TotalDone(p: DailyProgress): (n: int)
    ensures n - p.reviewsDone == p.newPuzzlesSeen
    ensures p.newPuzzlesSeen >= 0 && p.reviewsDone >= 0 ==> n >= p.newPuzzlesSeen && n >= p.reviewsDone
  {
    p.newPuzzlesSeen + p.reviewsDone
  }

  /** `is_new_limit_reached(new_limit)`. */
  predicate NewLimitReached(p: DailyProgress, newLimit: int): (reached: bool)
    ensures newLimit <= 0 && p.newPuzzlesSeen >= 0 ==> reached
    ensures reached ==> newLimit <= p.newPuzzlesSeen
  {
    p.newPuzzlesSeen >= newLimit
  }

  /** `is_total_limit_reached(total_limit)`. */
  predicate TotalLimitReached(p: DailyProgress, totalLimit: int): (reached: bool)
    ensures p.reviewsDone >= 0 && p.newPuzzlesSeen >= totalLimit ==> reached
    ensures p.newPuzzlesSeen >= 0 && p.reviewsDone >= totalLimit ==> reached
    ensures reached ==> totalLimit <= p.newPuzzlesSeen + p.reviewsDone
  {
    TotalDone(p) >= totalLimit
  }

  /**
    A reached limit stays reached after one more submission, and the total
    limit is reached by a submission exactly when it brings the total to the limit.
  */
  lemma LimitsStayReached(p: DailyProgress, firstAttempt: bool, newLimit: int, totalLimit: int)
    ensures NewLimitReached(p, newLimit) ==> NewLimitReached(RecordSubmission(p, firstAttempt), newLimit)
    ensures TotalLimitReached(p, totalLimit) ==> TotalLimitReached(RecordSubmission(p, firstAttempt), totalLimit)
    ensures !TotalLimitReached(p, totalLimit) ==>
      (TotalLimitReached(RecordSubmission(p, firstAttempt), totalLimit) <==> TotalDone(p) + 1 == totalLimit)
    ensures !firstAttempt ==>
      (NewLimitReached(RecordSubmission(p, firstAttempt), newLimit) <==> NewLimitReached(p, newLimit))
  {
  }

  /** `max(0, new_limit - new_puzzles_seen)`: new puzzles still allowed today. */
  function NewRemaining(p: DailyProgress, newLimit: int): (n: int)
    ensures n >= 0
    ensures n == 0 <==> NewLimitReached(p, newLimit)
    ensures n > 0 ==> p.newPuzzlesSeen + n == newLimit
  {
    MaxInt(0, newLimit - p.newPuzzlesSeen)
  }

  /** `max(0, total_limit - total_puzzles_done)`: puzzles of any kind still allowed today. */
  function TotalRemaining(p: DailyProgress, totalLimit: int): (n: int)
    ensures n >= 0
    ensures n == 0 <==> TotalLimitReached(p, totalLimit)
    ensures n > 0 ==> TotalDone(p) + n == totalLimit
  {
    MaxInt(0, totalLimit - TotalDone(p))
  }

  // ---------------------------------------------------------------------------
  // Daily mix
  // ---------------------------------------------------------------------------

  /** One puzzle of the daily mix and whether it is presented as new. */
  datatype MixEntry = MixEntry(puzzle: string, isNew: bool)

  /** Python's `s[:n]`, which for a negative `n` drops the last `-n` elements. */
  function SliceTo<T>(s: seq<T>, n: int): (r: seq<T>)
    ensures r <= s
    ensures n >= 0 ==> |r| == MinInt(n, |s|)
    ensures n < 0 ==> |r| == MaxInt(0, |s| + n)
  {
    if n >= 0 then s[..MinInt(n, |s|)] else s[..MaxInt(0, |s| + n)]
  }

  /**
    The daily mix of `DailyPuzzlesView.get`. `due` lists the due puzzles in
    the order the store returns them, which the source leaves unspecified, and
    `unseen` lists the player's never-attempted puzzles in random order. Due
    reviews come first, up to the total quota; new puzzles fill what is left,
    up to the new quota. A puzzle is flagged new when it is not among the due
    puzzles.
  */
  function DailyMix(p: DailyProgress, newLimit: int, totalLimit: int, due: seq<string>, unseen: seq<string>)
    : (mix: seq<MixEntry>)
    ensures TotalRemaining(p, totalLimit) == 0 ==> mix == []
    ensures |mix| <= TotalRemaining(p, totalLimit)
    ensures TotalRemaining(p, totalLimit) > 0 ==>
      |mix| == MinInt(TotalRemaining(p, totalLimit),
                      |due| + MinInt(|unseen|, NewRemaining(p, newLimit)))
    ensures var reviews := MinInt(|due|, TotalRemaining(p, totalLimit));
      && reviews <= |mix|
      && (forall i :: 0 <= i < reviews ==> mix[i] == MixEntry(due[i], false))
      && |mix| - reviews <= NewRemaining(p, newLimit)
      && (forall i :: reviews <= i < |mix| ==>
            mix[i].puzzle == unseen[i - reviews] && (mix[i].isNew <==> unseen[i - reviews] !in due))
  {
    var newRemaining := NewRemaining(p, newLimit);
    var totalRemaining := TotalRemaining(p, totalLimit);
    if totalRemaining <= 0 then []
    else
      var newPuzzles := unseen[..MinInt(newRemaining, |unseen|)];
      var reviewsToUse := MinInt(|due|, totalRemaining);
      var newToUse := MinInt(|newPuzzles|, totalRemaining - reviewsToUse);
      var combined := due[..reviewsToUse] + newPuzzles[..newToUse];
      seq(|combined|, i requires 0 <= i < |combined| => MixEntry(combined[i], combined[i] !in due))
  }

  /** `puzzles_data[:per_page]`: the page sent back; the selection itself does not depend on it. */
  function DailyPage(mix: seq<MixEntry>, perPage: int): (page: seq<MixEntry>)
    ensures page <= mix
    ensures 0 <= perPage ==> |page| == MinInt(perPage, |mix|)
  {
    SliceTo(mix, perPage)
  }

  /** The puzzles of all due records, the set the store enumerates as `due`. */
  function DuePuzzleIds(ms: seq<Memory>, now: Instant): (ids: set<string>)
    ensures forall id :: id in ids <==> exists m :: m in ms && IsDue(m, now) && m.puzzle == id
  {
    set m | m in ms && IsDue(m, now) :: m.puzzle
  }

  /** `s` lists each element of `items` exactly once. */
  ghost predicate Enumerates(s: seq<string>, items: set<string>) {
    && (forall i, j :: 0 <= i < j < |s| ==> s[i] != s[j])
    && (forall x :: x in s <==> x in items)
  }

  /**
    When `due` enumerates the due records' puzzles and `unseen` the never
    attempted ones, every entry flagged as a review is a due puzzle, every
    entry flagged new was never attempted, and no puzzle appears twice as a
    review.
  */
  lemma MixDrawsFromItsPools(
    p: DailyProgress, newLimit: int, totalLimit: int, ms: seq<Memory>, now: Instant,
    due: seq<string>, unseen: seq<string>, playerPuzzles: set<string>, attempted: set<string>)
    requires Enumerates(due, DuePuzzleIds(ms, now))
    requires Enumerates(unseen, playerPuzzles - attempted)
    ensures var mix := DailyMix(p, newLimit, totalLimit, due, unseen);
      forall e :: e in mix ==>
        (!e.isNew ==> e.puzzle in DuePuzzleIds(ms, now))
        && (e.isNew ==> e.puzzle in playerPuzzles && e.puzzle !in attempted)
  {
    var mix := DailyMix(p, newLimit, totalLimit, due, unseen);
    var reviews := MinInt(|due|, TotalRemaining(p, totalLimit));
    forall e | e in mix
      ensures !e.isNew ==> e.puzzle in DuePuzzleIds(ms, now)
      ensures e.isNew ==> e.puzzle in playerPuzzles && e.puzzle !in attempted
    {
      var i :| 0 <= i < |mix| && mix[i] == e;
      if i < reviews {
        assert due[i] in due;
      } else {
        assert unseen[i - reviews] in unseen;
      }
    }
  }

  /** Once the day's total is reached, the mix is empty whatever is due. */
  lemma QuotaExhaustedMixEmpty(p: DailyProgress, newLimit: int, totalLimit: int, due: seq<string>, unseen: seq<string>)
    requires TotalLimitReached(p, totalLimit)
    ensures DailyMix(p, newLimit, totalLimit, due, unseen) == []
  {
  }

  /** Once the day's new quota is reached, the mix holds due reviews only. */
  lemma NewQuotaReachedOnlyReviews(p: DailyProgress, newLimit: int, totalLimit: int, due: seq<string>, unseen: seq<string>)
    requires NewLimitReached(p, newLimit)
    ensures var mix := DailyMix(p, newLimit, totalLimit, due, unseen);
      |mix| == MinInt(|due|, TotalRemaining(p, totalLimit))
      && forall e :: e in mix ==> e.puzzle in due && !e.isNew
  {
    var mix := DailyMix(p, newLimit, totalLimit, due, unseen);
    forall e | e in mix ensures e.puzzle in due && !e.isNew {
      var i :| 0 <= i < |mix| && mix[i] == e;
      assert mix[i].puzzle == due[i];
    }
  }

  // ---------------------------------------------------------------------------
  // Attempt submission
  // ---------------------------------------------------------------------------

  /** `Max('attempt_number') + 1`, or 1 when the player never attempted the puzzle. */
  function NextAttemptNumber(prior: seq<int>): (n: int)
    ensures prior == [] ==> n == 1
    ensures forall i :: 0 <= i < |prior| ==> prior[i] < n
    ensures prior != [] ==> exists i :: 0 <= i < |prior| && n == prior[i] + 1
  {
    if |prior| == 0 then 1
    else
      var rest := NextAttemptNumber(prior[1..]);
      if |prior| == 1 || prior[0] + 1 >= rest then prior[0] + 1
      else
        var i :| 0 <= i < |prior[1..]| && rest == prior[1..][i] + 1;
        assert rest == prior[i + 1] + 1;
        rest
  }

  /** The rating used for the update: the explicit one if given, else the derived one. */
  function ResolveRating(explicit: Option<int>, solved: bool, triesCount: int, hintUsed: bool): (rating: int)
    ensures explicit.Some? ==> rating == explicit.value
    ensures explicit.None? ==> 1 <= rating <= 4
  {
    match explicit
    case Some(r) => r
    case None => DetermineRating(solved, triesCount, hintUsed)
  }

  /** A first attempt counts as a new puzzle seen, any later one as a review. */
  function RecordSubmission(p: DailyProgress, firstAttempt: bool): (p': DailyProgress)
    ensures TotalDone(p') == TotalDone(p) + 1
    ensures firstAttempt ==> p'.newPuzzlesSeen == p.newPuzzlesSeen + 1 && p'.reviewsDone == p.reviewsDone
    ensures !firstAttempt ==> p'.reviewsDone == p.reviewsDone + 1 && p'.newPuzzlesSeen == p.newPuzzlesSeen
  {
    if firstAttempt then p.(newPuzzlesSeen := p.newPuzzlesSeen + 1)
    else p.(reviewsDone := p.reviewsDone + 1)
  }

  /**
    What one submission stores and answers: the new attempt, today's progress,
    the memory update, and the review schedule of the response, `None` when the
    view as written ends in a server error.
  */
  datatype SubmitOutcome = SubmitOutcome(
    attempt: Attempt,
    rating: int,
    progress: DailyProgress,
    memory: Result<Memory, MathError>,
    report: Option<ReviewReport>)

  /**
    `FSRSPuzzleAttemptView.post` at time `now`: a negative try count fails
    the attempt's save, before anything is stored, and the request ends in a
    server error; any other submission is recorded by `Submission`.
  */
  function SubmitAttempt(
    a: Analysis, prior: seq<int>, progress: DailyProgress, existing: Option<Memory>,
    attemptId: string, memoryId: string, puzzle: string,
    triesCount: int, hintUsed: bool, solved: bool, explicitRating: Option<int>, now: Instant)
    : (r: Result<SubmitOutcome, AttemptError>)
    requires Lawful(a)
    ensures r.Err? <==> triesCount < 0
    ensures r.Err? ==> r.error == TriesRejected(triesCount)
    ensures r.Ok? ==> r.value.attempt.triesCount == triesCount >= 0
    ensures r.Ok? ==> r.value == Submission(a, prior, progress, existing, attemptId, memoryId, puzzle,
                                            triesCount, hintUsed, solved, explicitRating, now)
  {
    if triesCount < 0 then Err(TriesRejected(triesCount))
    else Ok(Submission(a, prior, progress, existing, attemptId, memoryId, puzzle,
                       triesCount, hintUsed, solved, explicitRating, now))
  }

  /**
    The bookkeeping of an accepted submission at time `now`. `prior`
    holds the attempt numbers the player already has on the puzzle and
    `existing` the player's memory record for it, if any; a missing record is
    created with the defaults before it is updated.
  */
  function Submission(
    a: Analysis, prior: seq<int>, progress: DailyProgress, existing: Option<Memory>,
    attemptId: string, memoryId: string, puzzle: string,
    triesCount: int, hintUsed: bool, solved: bool, explicitRating: Option<int>, now: Instant)
    : (out: SubmitOutcome)
    requires Lawful(a)
    ensures out.attempt.triesCount == triesCount && out.attempt.hintUsed == hintUsed && out.attempt.solved == solved
    ensures forall i :: 0 <= i < |prior| ==> prior[i] < out.attempt.attemptNumber
    ensures prior == [] ==> out.attempt.attemptNumber == 1
    ensures (forall i :: 0 <= i < |prior| ==> prior[i] >= 1) ==> (out.attempt.attemptNumber == 1 <==> prior == [])
    ensures TotalDone(out.progress) == TotalDone(progress) + 1
    ensures out.progress.newPuzzlesSeen == progress.newPuzzlesSeen + (if out.attempt.attemptNumber == 1 then 1 else 0)
    ensures out.attempt.completedAt.Some? <==> solved
    ensures out.rating == ResolveRating(explicitRating, solved, triesCount, hintUsed)
    ensures explicitRating.None? ==> 1 <= out.rating <= 4 && (out.rating == 1 <==> !solved)
    ensures out.memory == UpdateMemory(a, existing.GetOr(NewMemory(memoryId, puzzle)), out.rating, triesCount, hintUsed, now)
    ensures existing.None? ==> out.memory.Ok? && out.memory.value.lastReview == Some(now)
    ensures out.report.None? <==> out.memory.Err? || out.memory.value.stability == 0.0
    ensures out.report.Some? ==> out.report.value == SubmissionReport(a, out.memory, now)
    ensures out.report.None? ==> SubmissionReport(a, out.memory, now) == FallbackReport(now)
    ensures out.report.Some? && (existing.None? || existing.value.stability >= 0.0) ==>
      out.report.value.nextReview.Some? && out.report.value.nextReview.value >= now
      && out.report.value.retrievability == 1.0
  {
    var number := NextAttemptNumber(prior);
    var attempt := Attempt(attemptId, number, triesCount, hintUsed, solved, if solved then Some(now) else None);
    var rating := ResolveRating(explicitRating, solved, triesCount, hintUsed);
    var memory := existing.GetOr(NewMemory(memoryId, puzzle));
    var updated := UpdateMemory(a, memory, rating, triesCount, hintUsed, now);
    SubmitOutcome(attempt, rating, RecordSubmission(progress, number == 1), updated,
                  ReportAsWritten(a, updated, now))
  }

  /**
    A player's first, clean solve of a never-reviewed puzzle: rated Easy (4),
    stability 7.0, difficulty 1.9, and the next review `7.0 * -ln(0.9)` days later.
  */
  lemma FirstCleanSolve(a: Analysis, progress: DailyProgress, attemptId: string, memoryId: string, puzzle: string, now: Instant)
    requires Lawful(a)
    ensures var r := SubmitAttempt(a, [], progress, None, attemptId, memoryId, puzzle, 0, false, true, None, now);
      r.Ok? && var out := r.value;
      && out.rating == 4
      && out.attempt.attemptNumber == 1
      && out.progress == progress.(newPuzzlesSeen := progress.newPuzzlesSeen + 1)
      && out.memory.Ok?
      && out.memory.value.stability == 7.0
      && out.memory.value.difficulty == 1.9
      && out.memory.value.nextReview == Some(now + 7.0 * -a.ln(0.9))
      && out.report == Some(ReviewReport(Some(now + 7.0 * -a.ln(0.9)), 1.0))
  {
  }

  // ---------------------------------------------------------------------------
  // What a submission reports
  // ---------------------------------------------------------------------------

  /** The review schedule a submission answers with. */
  datatype ReviewReport = ReviewReport(nextReview: Option<Instant>, retrievability: real)

  /** The answer when the memory update fails: review again in a day, retrievability 1. */
  function FallbackReport(now: Instant): (r: ReviewReport)
    ensures r.nextReview.Some? && r.nextReview.value > now && r.retrievability == 1.0
  {
    ReviewReport(Some(now + 1.0), 1.0)
  }

  /**
    The report read off the memory update: its next review and the
    retrievability of the updated record, which fails when the update did or
    when the update left a stability of 0.
  */
  function UpdateReport(a: Analysis, updated: Result<Memory, MathError>, now: Instant)
    : (r: Result<ReviewReport, MathError>)
    requires Lawful(a)
    ensures updated.Err? ==> r.Err?
    ensures updated.Ok? && updated.value.lastReview == Some(now) ==>
      (r.Ok? <==> updated.value.stability != 0.0) && (r.Ok? ==> r.value.retrievability == 1.0)
    ensures r.Ok? ==> updated.Ok? && r.value.nextReview == updated.value.nextReview
  {
    match updated
    case Err(e) => Err(e)
    case Ok(m) =>
      match Retrievability(a, m, now)
      case Err(e) => Err(e)
      case Ok(rv) => Ok(ReviewReport(m.nextReview, rv))
  }

  /**
    The report as the submission view is written: when the update fails, the
    fallback handler itself raises (its `traceback` name is unbound), so the
    request ends in a server error, here `None`.
  */
  function ReportAsWritten(a: Analysis, updated: Result<Memory, MathError>, now: Instant)
    : (r: Option<ReviewReport>)
    requires Lawful(a)
    ensures r.None? <==> UpdateReport(a, updated, now).Err?
  {
    match UpdateReport(a, updated, now)
    case Ok(report) => Some(report)
    case Err(_) => None
  }

  /**
    A second Good review at the very instant of the last one zeroes the
    stability; reading the retrievability then divides by zero, and the view
    as written answers with a server error where the fallback was meant.
  */
  lemma SameInstantReviewIsServerError(a: Analysis, m: Memory)
    requires Lawful(a)
    requires m.lastReview.Some? && m.stability > 0.0
    ensures var now := m.lastReview.value;
      var updated := UpdateMemory(a, m, 3, 0, false, now);
      ReportAsWritten(a, updated, now).None? && SubmissionReport(a, updated, now) == FallbackReport(now)
  {
    FsrsProperties.SameInstantReviewZeroesStability(a, m, 3, 0, false, 3, 0, false, m.lastReview.value);
  }

  /**
    The report the submission view intends: the update's schedule, or the
    fallback when the update fails. It always reports full retrievability
    right after the review, and never a review date in the past when the
    update keeps its schedule in the future.
  */
  function SubmissionReport(a: Analysis, updated: Result<Memory, MathError>, now: Instant)
    : (r: ReviewReport)
    requires Lawful(a)
    ensures updated.Err? ==> r == FallbackReport(now)
    ensures updated.Err? || updated.value.lastReview == Some(now) ==> r.retrievability == 1.0
    ensures (updated.Ok? ==> updated.value.nextReview.Some? && updated.value.nextReview.value >= now) ==>
      r.nextReview.Some? && r.nextReview.value >= now
  {
    match UpdateReport(a, updated, now)
    case Ok(report) => report
    case Err(_) => FallbackReport(now)
  }
}

=== FILE: sequences.dfy ===
/** Order-preserving selection from sequences. */
module Sequences {

  /** `a` can be obtained from `b` by deleting elements, keeping the order of the rest. */
  predicate IsSubsequence<T(==)>(a: seq<T>, b: seq<T>) {
    if |a| == 0 then true
    else if |b| == 0 then false
    else if a[0] == b[0] then IsSubsequence(a[1..], b[1..])
    else IsSubsequence(a, b[1..])
  }

  /** No element occurs twice. */
  predicate Distinct<T(==)>(s: seq<T>) {
    forall i, j :: 0 <= i < j < |s| ==> s[i] != s[j]
  }

  /** Every element of a subsequence occurs in the sequence it was taken from. */
  lemma {:induction false} SubsequenceMembers<T>(a: seq<T>, b: seq<T>)
    requires IsSubsequence(a, b)
    ensures forall x :: x in a ==> x in b
  {
    if |a| > 0 && |b| > 0 {
      if a[0] == b[0] {
        SubsequenceMembers(a[1..], b[1..]);
        assert forall x :: x in a ==> x == a[0] || x in a[1..];
      } else {
        SubsequenceMembers(a, b[1..]);
      }
    }
  }

  /** Any sequence is a subsequence of itself with one more element in front. */
  lemma {:induction false} SubsequenceOfCons<T>(a: seq<T>, x: T, b: seq<T>)
    requires IsSubsequence(a, b)
    ensures IsSubsequence(a, [x] + b)
    decreases |a| + |b| + 1
  {
    if |a| > 0 && a[0] == x {
      assert ([x] + b)[1..] == b;
      SubsequenceDropFront(a, b);
    }
  }

  /** Dropping the first element of a subsequence keeps it a subsequence. */
  lemma {:induction false} SubsequenceDropFront<T>(a: seq<T>, b: seq<T>)
    requires |a| > 0 && IsSubsequence(a, b)
    ensures IsSubsequence(a[1..], b)
    decreases |a| + |b|
  {
    if a[0] == b[0] {
      if |a| > 1 {
        SubsequenceOfCons(a[1..], b[0], b[1..]);
        assert [b[0]] + b[1..] == b;
      }
    } else {
      SubsequenceDropFront(a, b[1..]);
      if |a| > 1 {
        SubsequenceOfCons(a[1..], b[0], b[1..]);
        assert [b[0]] + b[1..] == b;
      }
    }
  }

  /** A subsequence of a sequence without repetitions has none either. */
  lemma {:induction false} SubsequenceDistinct<T>(a: seq<T>, b: seq<T>)
    requires IsSubsequence(a, b) && Distinct(b)
    ensures Distinct(a)
  {
    if |a| > 0 && |b| > 0 {
      if a[0] == b[0] {
        SubsequenceDistinct(a[1..], b[1..]);
        SubsequenceMembers(a[1..], b[1..]);
        assert forall j :: 0 < j < |a| ==> a[j] in a[1..];
      } else {
        SubsequenceDistinct(a, b[1..]);
      }
    }
  }

  /** Every prefix of a sequence is a subsequence of it. */
  lemma {:induction false} PrefixIsSubsequence<T>(a: seq<T>, b: seq<T>)
    requires a <= b
    ensures IsSubsequence(a, b)
  {
    if |a| > 0 {
      PrefixIsSubsequence(a[1..], b[1..]);
    }
  }

  /** A prefix of a subsequence is still a subsequence. */
  lemma {:induction false} SubsequenceTake<T>(a: seq<T>, b: seq<T>, k: nat)
    requires IsSubsequence(a, b) && k <= |a|
    ensures IsSubsequence(a[..k], b)
    decreases |b|
  {
    if k > 0 {
      assert a[..k][0] == a[0];
      if a[0] == b[0] {
        SubsequenceTake(a[1..], b[1..], k - 1);
        assert a[..k][1..] == a[1..][..k - 1];
      } else {
        SubsequenceTake(a, b[1..], k);
      }
    }
  }

  /** A subsequence is no longer than the sequence it was taken from. */
  lemma {:induction false} SubsequenceLength<T>(a: seq<T>, b: seq<T>)
    requires IsSubsequence(a, b)
    ensures |a| <= |b|
  {
    if |a| > 0 {
      if a[0] == b[0] {
        SubsequenceLength(a[1..], b[1..]);
      } else {
        SubsequenceLength(a, b[1..]);
      }
    }
  }
}

=== FILE: sorting.dfy ===
/**
  Python's `list.sort`, as a functional insertion sort over any total
  preorder, and Python's ordering of strings.
*/
module Sorting {
  import opened Sequences

  /** `le` is total and transitive: it ranks every pair of values consistently. */
  ghost predicate TotalPreorder<T(!new)>(le: (T, T) -> bool) {
    && (forall x, y :: le(x, y) || le(y, x))
    && (forall x, y, z :: le(x, y) && le(y, z) ==> le(x, z))
  }

  /** Every element is ranked no later than every element after it. */
  ghost predicate SortedBy<T>(s: seq<T>, le: (T, T) -> bool) {
    forall i, j :: 0 <= i < j < |s| ==> le(s[i], s[j])
  }

  /** Inserts `x` into sorted `s` in front of the first element it ranks no later than. */
  function Insert<T(!new)>(x: T, s: seq<T>, le: (T, T) -> bool): (r: seq<T>)
    requires TotalPreorder(le)
    requires SortedBy(s, le)
    ensures SortedBy(r, le)
    ensures multiset(r) == multiset(s) + multiset{x}
    ensures forall e :: e in r <==> e == x || e in s
  {
    if |s| == 0 then [x]
    else if le(x, s[0]) then [x] + s
    else
      var rest := Insert(x, s[1..], le);
      assert s == [s[0]] + s[1..];
      assert forall e :: e in rest ==> le(s[0], e);
      [s[0]] + rest
  }

  /**
    Python's `sorted(s, key=...)` for the ranking `le`: an ordered
    rearrangement of `s`.
  */
  function Sort<T(!new)>(s: seq<T>, le: (T, T) -> bool): (r: seq<T>)
    requires TotalPreorder(le)
    ensures SortedBy(r, le)
    ensures multiset(r) == multiset(s)
    ensures |r| == |s|
  {
    if |s| == 0 then []
    else
      assert s == [s[0]] + s[1..];
      var r := Insert(s[0], Sort(s[1..], le), le);
      assert |r| == |multiset(r)|;
      r
  }

  /** Python's `a <= b` on strings: lexicographic by code point, a prefix first. */
  predicate StrLe(a: string, b: string) {
    |a| == 0 || (|b| > 0 && (a[0] < b[0] || (a[0] == b[0] && StrLe(a[1..], b[1..]))))
  }

  lemma {:induction false} StrLeTotal(a: string, b: string)
    ensures StrLe(a, b) || StrLe(b, a)
  {
    if |a| > 0 && |b| > 0 && a[0] == b[0] {
      StrLeTotal(a[1..], b[1..]);
    }
  }

  lemma {:induction false} StrLeTransitive(a: string, b: string, c: string)
    requires StrLe(a, b) && StrLe(b, c)
    ensures StrLe(a, c)
  {
    if |a| > 0 && |b| > 0 && |c| > 0 && a[0] == b[0] && b[0] == c[0] {
      StrLeTransitive(a[1..], b[1..], c[1..]);
    }
  }

  lemma {:induction false} StrLeAntisymmetric(a: string, b: string)
    requires StrLe(a, b) && StrLe(b, a)
    ensures a == b
  {
    if |a| > 0 && |b| > 0 {
      StrLeAntisymmetric(a[1..], b[1..]);
      assert a == [a[0]] + a[1..];
      assert b == [b[0]] + b[1..];
    }
  }

  /** The ranking `sort(reverse=True)` uses on strings: greatest first. */
  function NewestFirst(): (le: (string, string) -> bool)
    ensures TotalPreorder(le)
    ensures forall a, b :: le(a, b) <==> StrLe(b, a)
  {
    var le := (a: string, b: string) => StrLe(b, a);
    forall x, y ensures le(x, y) || le(y, x) { StrLeTotal(x, y); }
    forall x, y, z | le(x, y) && le(y, z) ensures le(x, z) { StrLeTransitive(z, y, x); }
    le
  }

  /** Deleting elements from a sorted sequence leaves it sorted. */
  lemma {:induction false} SubsequenceKeepsOrder<T>(a: seq<T>, b: seq<T>, le: (T, T) -> bool)
    requires IsSubsequence(a, b) && SortedBy(b, le)
    ensures SortedBy(a, le)
  {
    if |a| > 0 {
      if a[0] == b[0] {
        SubsequenceKeepsOrder(a[1..], b[1..], le);
        SubsequenceMembers(a[1..], b[1..]);
        forall j | 0 < j < |a| ensures le(a[0], a[j]) {
          assert a[j] in a[1..];
        }
      } else {
        SubsequenceKeepsOrder(a, b[1..], le);
      }
    }
  }
}

=== FILE: thresholds.dfy ===
/**
  Elo threshold crossings: the change test and crossing detector of the
  `notify_elo_thresholds` command, the historical detector and oldest-rating
  reduction of `check_missed_thresholds`, and the batch pause of the
  notification loop.

  Ratings dicts are modelled two ways: a dict that is iterated (`current_ratings`)
  is its item sequence in insertion order; a dict that is only looked up is a map.
*/
module EloThresholds {
  import opened Wrappers
  import opened Numerics
  import opened Sequences

  /** The items of a ratings dict, game type to rating, in insertion order. */
  type Ratings = seq<(string, int)>

  function GameTypesOf(current: Ratings): (keys: seq<string>)
    ensures |keys| == |current|
    ensures forall i :: 0 <= i < |current| ==> keys[i] == current[i].0
  {
    seq(|current|, i requires 0 <= i < |current| => current[i].0)
  }

  /** `last_ratings.get(game_type, 0)`. */
  function LastRating(last: map<string, int>, gameType: string): int {
    if gameType in last then last[gameType] else 0
  }

  // ---------------------------------------------------------------------------
  // Change test
  // ---------------------------------------------------------------------------

  /** Some current rating differs from the stored one, a missing stored rating reading as 0. */
  function SomeRatingDiffers(last: map<string, int>, current: Ratings): (b: bool)
    ensures b <==> exists i :: 0 <= i < |current| && LastRating(last, current[i].0) != current[i].1
  {
    if |current| == 0 then false
    else if LastRating(last, current[0].0) != current[0].1 then true
    else
      var b := SomeRatingDiffers(last, current[1..]);
      assert forall i :: 1 <= i < |current| ==> current[i] == current[1..][i - 1];
      assert b ==> exists i :: 0 <= i < |current| && LastRating(last, current[i].0) != current[i].1 by {
        if b {
          var j :| 0 <= j < |current[1..]| && LastRating(last, current[1..][j].0) != current[1..][j].1;
          assert current[j + 1] == current[1..][j];
        }
      }
      b
  }

  /** `have_ratings_changed`: always true without stored ratings. */
  function HaveRatingsChanged(last: map<string, int>, current: Ratings): (changed: bool)
    ensures |last| == 0 ==> changed
    ensures |last| > 0 ==> (changed <==> exists i :: 0 <= i < |current| && LastRating(last, current[i].0) != current[i].1)
  {
    if |last| == 0 then true else SomeRatingDiffers(last, current)
  }

  /** Stored ratings for game types that are no longer current make no difference. */
  lemma ExtraStoredTypesIgnored(last: map<string, int>, extra: map<string, int>, current: Ratings)
    requires |last| > 0
    requires forall i :: 0 <= i < |current| ==> current[i].0 !in extra
    ensures HaveRatingsChanged(last + extra, current) == HaveRatingsChanged(last, current)
  {
    assert |last + extra| > 0 by {
      var k :| k in last;
      assert k in last + extra;
    }
    assert forall i :: 0 <= i < |current| ==> LastRating(last + extra, current[i].0) == LastRating(last, current[i].0);
  }

  // ---------------------------------------------------------------------------
  // Buckets
  // ---------------------------------------------------------------------------

  /** `(rating // threshold) * threshold`: the threshold level a rating sits at. */
  function Bucket(rating: int, threshold: int): int
    requires threshold != 0
  {
    FloorDiv(rating, threshold) * threshold
  }

  /**
    A rating sits at most one threshold step above its level: for a positive
    threshold the level is the largest multiple at or below the rating.
  */
  lemma BucketBounds(rating: int, threshold: int)
    requires threshold != 0
    ensures threshold > 0 ==> Bucket(rating, threshold) <= rating < Bucket(rating, threshold) + threshold
    ensures threshold < 0 ==> Bucket(rating, threshold) + threshold < rating <= Bucket(rating, threshold)
  {
    FloorDivMod(rating, threshold);
  }

  /** A higher rating never sits at a lower threshold level, whatever the threshold's sign. */
  lemma BucketMonotone(r1: int, r2: int, threshold: int)
    requires threshold != 0 && r1 <= r2
    ensures Bucket(r1, threshold) <= Bucket(r2, threshold)
  {
    var q1, q2 := FloorDiv(r1, threshold), FloorDiv(r2, threshold);
    if threshold > 0 {
      DivMonotone(r1, r2, threshold);
      MulMonotone(q1, q2, threshold);
    } else {
      DivMonotone(-r2, -r1, -threshold);
      MulMonotone(q2, q1, -threshold);
      assert q1 * -threshold == -(q1 * threshold) && q2 * -threshold == -(q2 * threshold);
    }
  }

  // ---------------------------------------------------------------------------
  // Crossings
  // ---------------------------------------------------------------------------

  datatype Direction = Increased | Decreased

  /** One reported crossing: old and new rating, their threshold levels, and the direction. */
  datatype Crossing = Crossing(
    gameType: string,
    oldRating: int,
    newRating: int,
    oldThreshold: int,
    newThreshold: int,
    direction: Direction)

  function CrossedTypes(out: seq<Crossing>): (keys: seq<string>)
    ensures |keys| == |out|
    ensures forall i :: 0 <= i < |out| ==> keys[i] == out[i].gameType
  {
    seq(|out|, i requires 0 <= i < |out| => out[i].gameType)
  }

  /** The live detector reports a game type: both ratings are real and their levels differ. */
  predicate Crosses(last: map<string, int>, gameType: string, rating: int, threshold: int): (b: bool)
    requires threshold != 0
    ensures b ==> rating != 0 && LastRating(last, gameType) != 0 && LastRating(last, gameType) != rating
    ensures var step := if threshold > 0 then threshold else -threshold;
      (&& rating != 0 && LastRating(last, gameType) != 0
       && (rating - LastRating(last, gameType) >= step || LastRating(last, gameType) - rating >= step))
      ==> b
  {
    BucketBounds(rating, threshold);
    BucketBounds(LastRating(last, gameType), threshold);
    && rating != 0
    && LastRating(last, gameType) != 0
    && Bucket(LastRating(last, gameType), threshold) != Bucket(rating, threshold)
  }

  /** A crossing as `check_thresholds` writes it. */
  ghost predicate LiveCrossing(last: map<string, int>, current: Ratings, threshold: int, c: Crossing): (b: bool)
    requires threshold != 0
    ensures b ==> c.oldRating != 0 && c.newRating != 0 && c.oldRating != c.newRating
    ensures b ==> (c.direction == Increased <==> c.newRating > c.oldRating)
  {
    var (low, high) := if c.oldRating <= c.newRating then (c.oldRating, c.newRating) else (c.newRating, c.oldRating);
    BucketMonotone(low, high, threshold);
    && (exists i :: 0 <= i < |current| && current[i] == (c.gameType, c.newRating))
    && Crosses(last, c.gameType, c.newRating, threshold)
    && c.oldRating == LastRating(last, c.gameType)
    && c.oldThreshold == Bucket(c.oldRating, threshold)
    && c.newThreshold == Bucket(c.newRating, threshold)
    && (c.direction == Increased <==> c.newThreshold > c.oldThreshold)
  }

  /**
    `check_thresholds(last_ratings, current_ratings, threshold)`: one crossing
    per current game type whose level moved, in `current_ratings` order. A
    zero rating on either side means "no rating" and is never reported.
    What it reports is stated by `CheckThresholdsSound`, `CheckThresholdsComplete`
    and `CheckThresholdsInOrder`.
  */
  function CheckThresholds(last: map<string, int>, current: Ratings, threshold: int): (out: seq<Crossing>)
    requires threshold != 0
    ensures |out| <= |current|
  {
    if |current| == 0 then []
    else
      var (gameType, rating) := current[0];
      var rest := CheckThresholds(last, current[1..], threshold);
      if Crosses(last, gameType, rating, threshold) then
        var lastRating := LastRating(last, gameType);
        var oldLevel := Bucket(lastRating, threshold);
        var newLevel := Bucket(rating, threshold);
        [Crossing(gameType, lastRating, rating, oldLevel, newLevel,
                  if newLevel > oldLevel then Increased else Decreased)] + rest
      else rest
  }

  /** Every reported crossing is a current game type whose level really moved, with the right direction. */
  lemma {:induction false} CheckThresholdsSound(last: map<string, int>, current: Ratings, threshold: int)
    requires threshold != 0
    ensures forall c :: c in CheckThresholds(last, current, threshold) ==> LiveCrossing(last, current, threshold, c)
  {
    if |current| > 0 {
      var rest := CheckThresholds(last, current[1..], threshold);
      CheckThresholdsSound(last, current[1..], threshold);
      forall c | c in rest ensures LiveCrossing(last, current, threshold, c) {
        var i :| 0 <= i < |current[1..]| && current[1..][i] == (c.gameType, c.newRating);
        assert current[i + 1] == (c.gameType, c.newRating);
      }
      assert current[0] == (current[0].0, current[0].1);
    }
  }

  /** Every current game type whose level moved is reported. */
  lemma {:induction false} CheckThresholdsComplete(last: map<string, int>, current: Ratings, threshold: int, i: int)
    requires threshold != 0
    requires 0 <= i < |current| && Crosses(last, current[i].0, current[i].1, threshold)
    ensures exists c :: c in CheckThresholds(last, current, threshold) && c.gameType == current[i].0 && c.newRating == current[i].1
  {
    var out := CheckThresholds(last, current, threshold);
    if i == 0 {
      assert out[0].gameType == current[0].0 && out[0].newRating == current[0].1;
    } else {
      CheckThresholdsComplete(last, current[1..], threshold, i - 1);
      var c :| c in CheckThresholds(last, current[1..], threshold) && c.gameType == current[1..][i - 1].0 && c.newRating == current[1..][i - 1].1;
      assert c in out;
    }
  }

  /** Crossings come in `current_ratings` order. */
  lemma {:induction false} CheckThresholdsInOrder(last: map<string, int>, current: Ratings, threshold: int)
    requires threshold != 0
    ensures IsSubsequence(CrossedTypes(CheckThresholds(last, current, threshold)), GameTypesOf(current))
  {
    if |current| > 0 {
      var rest := CheckThresholds(last, current[1..], threshold);
      CheckThresholdsInOrder(last, current[1..], threshold);
      assert GameTypesOf(current) == [current[0].0] + GameTypesOf(current[1..]);
      if Crosses(last, current[0].0, current[0].1, threshold) {
        var out := CheckThresholds(last, current, threshold);
        assert CrossedTypes(out) == [current[0].0] + CrossedTypes(rest);
        assert CrossedTypes(out)[1..] == CrossedTypes(rest);
        assert GameTypesOf(current)[1..] == GameTypesOf(current[1..]);
      } else {
        SubsequenceOfCons(CrossedTypes(rest), current[0].0, GameTypesOf(current[1..]));
      }
    }
  }

  /** Reported game types are current game types; a type only in the stored ratings is never reported. */
  lemma ReportsOnlyCurrentTypes(last: map<string, int>, current: Ratings, threshold: int, c: Crossing)
    requires threshold != 0
    requires c in CheckThresholds(last, current, threshold)
    ensures c.gameType in GameTypesOf(current)
  {
    CheckThresholdsSound(last, current, threshold);
    var i :| 0 <= i < |current| && current[i] == (c.gameType, c.newRating);
    assert GameTypesOf(current)[i] == c.gameType;
  }

  /** With distinct game types, no game type is reported twice. */
  lemma AtMostOnePerGameType(last: map<string, int>, current: Ratings, threshold: int)
    requires threshold != 0
    requires Distinct(GameTypesOf(current))
    ensures Distinct(CrossedTypes(CheckThresholds(last, current, threshold)))
  {
    CheckThresholdsInOrder(last, current, threshold);
    SubsequenceDistinct(CrossedTypes(CheckThresholds(last, current, threshold)), GameTypesOf(current));
  }

  // ---------------------------------------------------------------------------
  // Historical check
  // ---------------------------------------------------------------------------

  /** `check_missed_thresholds` reports a game type: it has history, and the two real ratings sit at different levels. */
  predicate CrossesSince(historical: map<string, int>, gameType: string, rating: int, threshold: int)
    requires threshold != 0
  {
    && gameType in historical
    && historical[gameType] != 0
    && rating != 0
    && historical[gameType] != rating
    && Bucket(historical[gameType], threshold) != Bucket(rating, threshold)
  }

  /**
    `check_historical_thresholds(historical_ratings, current_ratings, threshold)`.
    Unlike the live detector, it names the direction by comparing the raw ratings.
  */
  function CheckHistoricalThresholds(historical: map<string, int>, current: Ratings, threshold: int): (out: seq<Crossing>)
    requires threshold != 0
    ensures forall c :: c in out ==>
      && CrossesSince(historical, c.gameType, c.newRating, threshold)
      && c.oldRating == historical[c.gameType]
      && (c.direction == Increased <==> c.newRating > c.oldRating)
  {
    if |current| == 0 then []
    else
      var (gameType, rating) := current[0];
      var rest := CheckHistoricalThresholds(historical, current[1..], threshold);
      if CrossesSince(historical, gameType, rating, threshold) then
        var start := historical[gameType];
        [Crossing(gameType, start, rating, Bucket(start, threshold), Bucket(rating, threshold),
                  if rating > start then Increased else Decreased)] + rest
      else rest
  }

  /**
    The two detectors agree: run on the same ratings, the historical check
    reports exactly the crossings of the live check, directions included,
    because a change of level always points the same way as the change of rating.
  */
  lemma {:induction false} HistoricalAgreesWithLive(historical: map<string, int>, current: Ratings, threshold: int)
    requires threshold != 0
    ensures CheckHistoricalThresholds(historical, current, threshold) == CheckThresholds(historical, current, threshold)
  {
    if |current| > 0 {
      HistoricalAgreesWithLive(historical, current[1..], threshold);
      SameVerdict(historical, current[0].0, current[0].1, threshold);
    }
  }

  /** On one game type the two detectors decide alike and name the same direction. */
  lemma SameVerdict(historical: map<string, int>, gameType: string, rating: int, threshold: int)
    requires threshold != 0
    ensures CrossesSince(historical, gameType, rating, threshold) == Crosses(historical, gameType, rating, threshold)
    ensures CrossesSince(historical, gameType, rating, threshold) ==>
      (rating > historical[gameType] <==> Bucket(rating, threshold) > Bucket(historical[gameType], threshold))
  {
    var start := LastRating(historical, gameType);
    if start <= rating {
      BucketMonotone(start, rating, threshold);
    } else {
      BucketMonotone(rating, start, threshold);
    }
  }

  // ---------------------------------------------------------------------------
  // Oldest rating per time class
  // ---------------------------------------------------------------------------

  /** The columns of a stored game that the historical reduction reads. */
  datatype GameRow = GameRow(endTime: int, timeClass: string, playerRating: Option<int>)

  /** `f"chess_{game.time_class or 'unknown'}"`. */
  function RatingKey(g: GameRow): string {
    "chess_" + (if g.timeClass == "" then "unknown" else g.timeClass)
  }

  /** A game contributes when it is inside the look-back window and has a non-zero player rating. */
  predicate Contributes(g: GameRow, cutoff: int) {
    g.endTime >= cutoff && g.playerRating.Some? && g.playerRating.value != 0
  }

  /** Game `i` is the first of `games` that contributes a rating under key `k`. */
  ghost predicate FirstContributor(games: seq<GameRow>, cutoff: int, k: string, i: int) {
    && 0 <= i < |games|
    && Contributes(games[i], cutoff)
    && RatingKey(games[i]) == k
    && forall j :: 0 <= j < i ==> !(Contributes(games[j], cutoff) && RatingKey(games[j]) == k)
  }

  /**
    The reduction of `get_historical_ratings`: for every time class, the player
    rating of the first contributing game of `games` (the store returns them
    ordered by end time). Time classes with no contributing game are absent.
  */
  function HistoricalRatings(games: seq<GameRow>, cutoff: int): (h: map<string, int>)
    ensures forall k :: k in h <==> exists i :: 0 <= i < |games| && Contributes(games[i], cutoff) && RatingKey(games[i]) == k
    ensures forall k :: k in h ==> exists i :: FirstContributor(games, cutoff, k, i) && h[k] == games[i].playerRating.value
  {
    if |games| == 0 then map[]
    else
      var g := games[0];
      var rest := HistoricalRatings(games[1..], cutoff);
      var h := if Contributes(g, cutoff) then rest[RatingKey(g) := g.playerRating.value] else rest;
      HistoricalStep(games, cutoff, rest, h);
      h
  }

  /** One step of the reduction: the head game wins its key, the tail decides the other keys. */
  lemma HistoricalStep(games: seq<GameRow>, cutoff: int, rest: map<string, int>, h: map<string, int>)
    requires |games| > 0
    requires forall k :: k in rest <==> exists i :: 0 <= i < |games[1..]| && Contributes(games[1..][i], cutoff) && RatingKey(games[1..][i]) == k
    requires forall k :: k in rest ==> exists i :: FirstContributor(games[1..], cutoff, k, i) && rest[k] == games[1..][i].playerRating.value
    requires h == if Contributes(games[0], cutoff) then rest[RatingKey(games[0]) := games[0].playerRating.value] else rest
    ensures forall k :: k in h <==> exists i :: 0 <= i < |games| && Contributes(games[i], cutoff) && RatingKey(games[i]) == k
    ensures forall k :: k in h ==> exists i :: FirstContributor(games, cutoff, k, i) && h[k] == games[i].playerRating.value
  {
    HistoricalStepKeys(games, cutoff, rest, h);
    HistoricalStepValues(games, cutoff, rest, h);
  }

  /** The keys after one step are those of the contributing games. */
  lemma HistoricalStepKeys(games: seq<GameRow>, cutoff: int, rest: map<string, int>, h: map<string, int>)
    requires |games| > 0
    requires forall k :: k in rest <==> exists i :: 0 <= i < |games[1..]| && Contributes(games[1..][i], cutoff) && RatingKey(games[1..][i]) == k
    requires h == if Contributes(games[0], cutoff) then rest[RatingKey(games[0]) := games[0].playerRating.value] else rest
    ensures forall k :: k in h <==> exists i :: 0 <= i < |games| && Contributes(games[i], cutoff) && RatingKey(games[i]) == k
  {
    forall k ensures k in h <==> exists i :: 0 <= i < |games| && Contributes(games[i], cutoff) && RatingKey(games[i]) == k {
      if exists i :: 0 <= i < |games| && Contributes(games[i], cutoff) && RatingKey(games[i]) == k {
        var i :| 0 <= i < |games| && Contributes(games[i], cutoff) && RatingKey(games[i]) == k;
        if i > 0 {
          assert games[1..][i - 1] == games[i];
        }
      }
      if k in rest {
        var i :| 0 <= i < |games[1..]| && Contributes(games[1..][i], cutoff) && RatingKey(games[1..][i]) == k;
        assert games[i + 1] == games[1..][i];
      }
    }
  }

  /** The value after one step comes from the first contributing game of its key. */
  lemma HistoricalStepValues(games: seq<GameRow>, cutoff: int, rest: map<string, int>, h: map<string, int>)
    requires |games| > 0
    requires forall k :: k in rest ==> exists i :: FirstContributor(games[1..], cutoff, k, i) && rest[k] == games[1..][i].playerRating.value
    requires h == if Contributes(games[0], cutoff) then rest[RatingKey(games[0]) := games[0].playerRating.value] else rest
    ensures forall k :: k in h ==> exists i :: FirstContributor(games, cutoff, k, i) && h[k] == games[i].playerRating.value
  {
    var g := games[0];
    forall k | k in h ensures exists i :: FirstContributor(games, cutoff, k, i) && h[k] == games[i].playerRating.value {
      if Contributes(g, cutoff) && RatingKey(g) == k {
        assert FirstContributor(games, cutoff, k, 0);
      } else {
        var i :| FirstContributor(games[1..], cutoff, k, i) && rest[k] == games[1..][i].playerRating.value;
        assert games[i + 1] == games[1..][i];
        forall j | 0 <= j < i + 1 ensures !(Contributes(games[j], cutoff) && RatingKey(games[j]) == k) {
          if j > 0 {
            assert games[j] == games[1..][j - 1];
          }
        }
        assert FirstContributor(games, cutoff, k, i + 1);
      }
    }
  }

  /**
    When the games come ordered by end time, the recorded rating of a time
    class belongs to its earliest contributing game, and that rating is never 0.
  */
  lemma HistoricalRatingIsOldest(games: seq<GameRow>, cutoff: int, k: string, j: int)
    requires forall p, q :: 0 <= p < q < |games| ==> games[p].endTime <= games[q].endTime
    requires 0 <= j < |games| && Contributes(games[j], cutoff) && RatingKey(games[j]) == k
    ensures k in HistoricalRatings(games, cutoff)
    ensures HistoricalRatings(games, cutoff)[k] != 0
    ensures exists i :: (0 <= i < |games| && Contributes(games[i], cutoff) && RatingKey(games[i]) == k
      && HistoricalRatings(games, cutoff)[k] == games[i].playerRating.value
      && games[i].endTime <= games[j].endTime)
  {
    var h := HistoricalRatings(games, cutoff);
    assert k in h;
    var i :| FirstContributor(games, cutoff, k, i) && h[k] == games[i].playerRating.value;
    assert i <= j;
  }

  // ---------------------------------------------------------------------------
  // Batch pause
  // ---------------------------------------------------------------------------

  /** `i > 0 and i % batch_size == 0`: pause before the player at position `i`. */
  predicate PausesBefore(i: int, batchSize: int): (b: bool)
    requires batchSize != 0
    ensures b ==> i > 0
    ensures batchSize > 0 ==> (b <==> i > 0 && i % batchSize == 0)
  {
    i > 0 && FloorMod(i, batchSize) == 0
  }

  /** The number of pauses while handling the first `n` players. */
  function PauseCount(n: nat, batchSize: int): (count: nat)
    requires batchSize != 0
    ensures n >= 1 ==> count < n
  {
    if n == 0 then 0 else PauseCount(n - 1, batchSize) + (if PausesBefore(n - 1, batchSize) then 1 else 0)
  }

  /** Stepping from `i - 1` to `i` raises the quotient by one exactly when `i` is a multiple of `d`. */
  lemma DivStep(i: int, d: int)
    requires d > 0 && i >= 1
    ensures i % d == 0 ==> i / d == (i - 1) / d + 1
    ensures i % d != 0 ==> i / d == (i - 1) / d
  {
    var q, r := (i - 1) / d, (i - 1) % d;
    assert i - 1 == q * d + r && 0 <= r < d;
    if r == d - 1 {
      DivModUnique(i, d, q + 1, 0);
    } else {
      DivModUnique(i, d, q, r + 1);
    }
  }

  /** Handling `n >= 1` players with a positive batch size pauses `(n - 1) / batch_size` times. */
  lemma {:induction false} PauseCountFormula(n: nat, batchSize: int)
    requires batchSize > 0 && n >= 1
    ensures PauseCount(n, batchSize) == (n - 1) / batchSize
  {
    if n > 1 {
      PauseCountFormula(n - 1, batchSize);
      DivStep(n - 1, batchSize);
    }
  }

  /** A negative batch size pauses exactly where its absolute value does. */
  lemma PauseIgnoresBatchSign(i: int, batchSize: int)
    requires batchSize != 0
    ensures PausesBefore(i, batchSize) == PausesBefore(i, -batchSize)
  {
    var d := if batchSize > 0 then batchSize else -batchSize;
    assert FloorMod(i, d) == i % d;
    assert FloorMod(i, -d) == -((-i) % d);
    if i % d == 0 {
      DivModUnique(-i, d, -(i / d), 0);
    }
    if (-i) % d == 0 {
      DivModUnique(i, d, -((-i) / d), 0);
    }
  }
}

=== FILE: wrappers.dfy ===
/** Failure-carrying wrappers shared by every module of the model. */
module Wrappers {

  /** A value that may be absent: Python's `None`, a missing dict key or a NULL column. */
  datatype Option<+T> = None | Some(value: T) {
    /** The wrapped value, or `default` when absent (Python's `d.get(k, default)`). */
    function GetOr(default: T): T {
      match this
      case Some(v) => v
      case None => default
    }
  }

  /** The outcome of an operation that the source can abort by raising an exception. */
  datatype Result<+R, +E> = Ok(value: R) | Err(error: E)
}
